=== FILE: README.md ===
# korbit client, modelled in Dafny

A model of the Python client for the Korbit exchange's REST API, and proofs
about it. It covers four pieces of the client:

- **The token lifecycle** of `korbit/api.py` (`access_token` with
  `has_expired` and `request_token`). A stored token is absent, valid or
  expired. A valid one is returned untouched. Otherwise a password grant is
  requested, stamped with `issued_at = now` and stored. A failed refresh of an
  expired token is attempted a second time by the bare `except`.
- **The gateway and the response shaping** of `korbit/api.py`:
  - the 200 / non-200 dispatch of `get` and `post`;
  - the orderbook rows turned into `Order` values, with the `'bids'` / `'asks'`
    selector;
  - the client-side open-order filter;
  - order placement with its truncated price;
  - bulk cancellation.
- **The transaction table** of `korbit/models.py`:
  - the field mapping of `Transaction.insert`, including millisecond to second
    conversion;
  - the insert that swallows a duplicate key;
  - the "recent sale / buying orders" queries.
- **The older single-file client** `korbit.py`:
  - its gateway;
  - a token manager that never checks expiry and always re-stores the token;
  - the per-endpoint nonce offsets.

The `Order` value object is imported by `korbit/api.py` from `korbit.models`.
`korbit/models.py` as it stands defines no `Order` class, so the model of
`Order` follows the two tests that use it.

Modules follow the program's structure:

- `Json` (`json.dfy`): parsed JSON values, the exceptions the client raises, and
  Python's `v[key]`, `int(v)` and `long(v)` on such values.
- `Env` (`env.dfy`): the collaborators, made explicit as a `World`:
  - a clock reading, in seconds and in milliseconds;
  - the token file, as a map from file name to stored value, plus a log of
    writes;
  - the transport, as a script of replies and a log of sent requests.

  Every operation takes a world and returns its result with the next world.
- `Gateway` (`gateway.dfy`): `get` / `post` of `korbit/api.py`.
- `Tokens` (`tokens.dfy`): `access_token` of `korbit/api.py`.
- `Orders` (`orders.dfy`): the `Order` value object.
- `Api` (`api.dfy`): orderbook, authenticated calls, open orders, cancellation,
  order placement.
- `Transactions` (`transactions.dfy`): `korbit/models.py`; the database session
  is a map from primary key to row.
- `Legacy` (`legacy.dfy`): `korbit.py`.

## Model

| member | source | states |
|---|---|---|
| `Json.Item` | korbit/models.py:49-61 | `x[key]` yields the entry exactly when `x` is a dictionary holding `key`; a dictionary without it raises `KeyError(key)`, any other value `TypeError` |
| `Json.ParseInt` | korbit/models.py:52-53 | `long(s)` on a string succeeds exactly for a non-empty run of decimal digits, with a non-negative result; anything else raises `ValueError` |
| `Json.ParseShowRoundTrip` | korbit/models.py:52-53 | reading back the decimal digits of any natural number yields that number |
| `Json.Truncate` | korbit/api.py:323 | `int(x)` of a float is the integer within one of `x` on the side of zero: below a non-negative `x`, above a negative one |
| `Json.AsInteger` | korbit/models.py:52-53 | `int`/`long` of a JSON value: integers unchanged, booleans 0/1, floats truncated, strings parsed; `TypeError` exactly for null, lists and dictionaries |
| `Env.LoadDict` | korbit/api.py:19-21 | `load_dict` returns the stored value exactly when the file exists, and raises otherwise |
| `Env.StoreDict` | korbit/api.py:24-26 | `store_dict` makes the file hold the value and logs the write; every other file, the clock, the transport are unchanged |
| `Gateway.Dispatch` | korbit/api.py:37-40 | an answer is accepted exactly when its status is 200, and then yields its body; another status raises carrying that status; no answer raises a connection error |
| `Gateway.Get` | korbit/api.py:29-40 | one GET to `base/path` with the parameters is sent; the parsed body exactly when the status is 200, an exception with the status otherwise; no file is touched |
| `Gateway.Post` | korbit/api.py:43-53 | as `Gateway.Get`, for one POST with the form data |
| `Gateway.UrlInjective` | korbit/api.py:31 | two different paths under one base URL are two different endpoints |
| `Tokens.Numeric` | korbit/api.py:65 | under Python 3's rules, the token fields take part in `+` and `<` exactly when they are numbers: integers and floats with their value, booleans as 1 and 0 |
| `Tokens.Deadline` | korbit/api.py:62-65 | the deadline exists exactly when the token is a dictionary with numeric `issued_at` and `expires_in`, and is their sum |
| `Tokens.HasExpired` | korbit/api.py:59-65 | a token is expired exactly when `issued_at + expires_in < now`; a token at its deadline is still valid; a token without a numeric deadline raises |
| `Tokens.ExpiryIsMonotone` | korbit/api.py:65 | a token expired at some time stays expired later; one valid at some time was valid earlier |
| `Tokens.Stamp` | korbit/api.py:76 | setting `issued_at = now` succeeds exactly on a dictionary, and changes only that key |
| `Tokens.RequestToken` | korbit/api.py:67-80 | exactly one password-grant POST is sent and one answer consumed; success exactly when the answer is a 200 with a dictionary body, which is then stamped with the current time, stored and returned; a failure stores nothing |
| `Tokens.StateOf` | korbit/api.py:84-88 | the stored token is absent (missing file or no computable deadline), valid (not expired) or expired, each characterised by the load and the expiry test |
| `Tokens.AccessToken` | korbit/api.py:82-93 | a valid stored token is returned with no request and no write; an absent one is replaced by what `request_token` returns; an expired one by the first `request_token` when it succeeds, and otherwise by the second, so only a second failure propagates; a new token is the body of the 200 answer to the last grant sent, stamped with `now`, and is what the file now holds; an expired token costs one or two grant requests, two exactly when the first refresh failed; a failure leaves the token file alone |
| `Tokens.RefreshedTokenIsReused` | korbit/api.py:84-93 | after a successful call yields a token with a non-negative lifetime, a second call at the same time returns that token without any request or write |
| `Orders.FromRaw` | tests/model_test.py:4-12 | `Order(order_type, raw)` succeeds exactly for a three-element `raw` whose first and third elements convert to integers; it keeps the order type, and copies price, amount and count from the three elements in order |
| `Orders.FromRawToRaw` | tests/model_test.py:9-12 | an order rebuilt from its own raw triple is the same order |
| `Orders.FlooredPrice` | tests/basic_test.py:120 | the floored price is the multiple of 100 at or below the price, less than 100 below it |
| `Orders.CeilingedPrice` | tests/basic_test.py:119 | the ceilinged price is the multiple of 100 at or above the price, less than 100 above it |
| `Orders.RoundedPrice` | tests/basic_test.py:118 | the rounded price is a multiple of 100 within 50 of the price, either the floor or the ceiling, and strictly the nearer one when the price is not halfway |
| `Orders.PriceHelpersAgree` | tests/basic_test.py:118-120 | floor ≤ rounded ≤ ceiling, floor and ceiling are equal or 100 apart, and a multiple of 100 is its own floor, ceiling and rounding |
| `Orders.RoundedPriceExample` | tests/basic_test.py:115-120 | the order built from `(500123, 0.1, 1)` has price 500123, rounded price 500100, ceilinged price 500200 and floored price 500100 |
| `Orders.OrderObjectExample` | tests/model_test.py:4-12 | the order built as `'bid'` from `[300000, 0.1, 2]` has type `'bid'`, price 300000, amount 0.1 and count 2 |
| `Api.AuthCall` | korbit/api.py:285-287 | an authenticated call first obtains a token; a token failure propagates, and a token without `access_token` raises, both with nothing sent; otherwise exactly one request goes out, carrying the caller's parameters, `token['access_token']` and the millisecond clock as nonce, and its answer is dispatched as `get`/`post` do; the token manager's writes are the only writes |
| `Api.AuthCallIsGatewayCall` | korbit/api.py:296-298 | with a usable token an authenticated call is exactly `Gateway.Get` or `Gateway.Post` from the token manager's world, with the access token and nonce added to the parameters |
| `Api.MapRows` | korbit/api.py:171-172 | mapping rows to orders succeeds exactly when every row is well formed, and then gives one order per row, in order, each built from its row with the given side |
| `Api.Side` | korbit/api.py:171-172 | one side of the book decodes when it is a list of well-formed rows, one order per row in order |
| `Api.Reshape` | korbit/api.py:170-177 | reshaping succeeds exactly for a book with list-valued `asks` and `bids` of well-formed rows; `'bids'` or `'asks'` returns that side alone; any other selector returns the whole book with both sides decoded and every other key as received |
| `Api.DecodedOrdersCarrySide` | korbit/api.py:171-172 | every order decoded from the ask rows is an `'ask'`, every one from the bid rows a `'bid'` |
| `Api.SideSelectionAgrees` | korbit/api.py:174-177 | selecting `'bids'` or `'asks'` returns exactly that side of the whole book, and the singular `'bid'` returns the whole book |
| `Api.GetOrderbook` | korbit/api.py:170-177 | with the default `type=None`; one public GET of `orderbook`, one answer consumed, no file touched and the clock kept; success exactly when the answer is a 200 whose body can be reshaped, and the result is that reshaping |
| `Api.Select` | korbit/api.py:290 | the filter succeeds exactly when every order has a `type`, and never returns more orders than it was given |
| `Api.SelectMembership` | korbit/api.py:289-290 | the filter returns fetched orders of the requested type only, and every fetched order of that type |
| `Api.SelectAppend` | korbit/api.py:290 | filtering a concatenation concatenates the filtered parts, so the order of the list is kept |
| `Api.SelectCons` | korbit/api.py:290 | one step of the filter: the first order is kept exactly when it has the requested type |
| `Api.SelectKeepsMatching` | korbit/api.py:290 | a list whose orders all have the requested type passes whole |
| `Api.SelectDropsOthers` | korbit/api.py:290 | a list with no order of the requested type filters to nothing |
| `Api.FilterOrders` | korbit/api.py:289-292 | the filter applies exactly to a list of typed orders, and yields the filtered list |
| `Api.GetOpenOrders` | korbit/api.py:285-292 | `get_open_orders(None)` returns the fetched list unchanged; any other type gives the filtered list; a failure of the fetch propagates; both leave the same world; with a usable token the list is the answer to the GET |
| `Api.AccessTokenCancelsNothing` | korbit/api.py:56-93 | the requests of the token manager include no cancel |
| `Api.AuthCallCancels` | korbit/api.py:295-298 | an authenticated call to another endpoint cancels nothing; a cancel call adds its id to the cancels exactly when the token is usable, and nothing otherwise |
| `Api.CancelOrder` | korbit/api.py:295-298 | with a token carrying an access token, exactly one POST goes out after the token requests, carrying `id`, the access token and the millisecond nonce and nothing else; one answer is consumed and dispatched; `id` is added to the cancels sent exactly then; otherwise it raises with nothing sent; in every case the token file, the writes and the clock are those the token manager left |
| `Api.IdsOf` | korbit/api.py:307 | the ids are collected exactly when every order has one, one id per order, in order |
| `Api.CancelEach` | korbit/api.py:307 | on success there is one answer per id |
| `Api.CancelEachCancelsPrefix` | korbit/api.py:307 | the cancels sent are always a prefix of the ids, earlier cancels stay sent, and all of them go out, in order, on success |
| `Api.CancelEachStopsAtFirstFailure` | korbit/api.py:307 | a failed bulk cancel is some accepted cancels followed by one failing cancel, and its final state is the one that failing cancel left: nothing is tried after the first failure |
| `Api.CancelAllOrders` | korbit/api.py:301-307 | bulk cancellation as intended: on success the open orders were fetched, every one had an id, and there is one answer per open order |
| `Api.CancelAllCancelsOpenOrders` | korbit/api.py:305-307 | the cancels sent by bulk cancellation are a prefix of the open orders' ids, and all of them, in order, on success |
| `Api.CancelAllOrdersAsWritten` | korbit/api.py:305 | bulk cancellation as written raises a missing-argument `TypeError` and leaves the world as it was |
| `Api.CancelAllDiscrepancy` | korbit/api.py:301-307 | with a valid token and one open order `138502`, the intended operation cancels that order and succeeds, while the one as written fails and cancels nothing |
| `Api.PlaceOrder` | korbit/api.py:310-332 | with the source's defaults; with a usable token exactly one POST goes out after the token requests, to `user/orders/<order>`, carrying exactly the order form (the price truncated toward zero, the given currency, amount and order type), `token['access_token']` and the millisecond nonce; one answer is consumed and dispatched; without a usable token nothing is sent and the call raises |
| `Api.PlaceOrderIsGatewayPost` | korbit/api.py:328-332 | with a usable token, placing an order is `Gateway.Post` to `user/orders/<order>` of the order form with the access token and nonce, from the token manager's world |
| `Transactions.Seconds` | korbit/models.py:52-53 | an epoch-millisecond value converts exactly when it is an integer-like value, to the whole seconds it falls in |
| `Transactions.Nested` | korbit/models.py:54-61 | `x[outer][inner]` succeeds exactly when both lookups do, with the inner entry |
| `Transactions.MoneyAt` | korbit/models.py:54-60 | a currency/value group is read exactly when both its fields are present |
| `Transactions.ParseSigned` | korbit/models.py:29 | a string is read as an integer exactly when it is digits, optionally after `+` or `-`, with the sign applied |
| `Transactions.FromRecord` | korbit/models.py:49-61 | the mapping succeeds exactly when every field it reads is present and converts; on success every column comes one for one from its field of the record: id, type, fee currency and value, order id, price and amount currency and value, balances; the two times are the millisecond fields in whole seconds; a record without `fee` or `fillsDetail` fails |
| `Transactions.FromRecordToRecord` | korbit/models.py:49-61 | every row is read back from a record carrying its fields, with its times in milliseconds |
| `Transactions.PrimaryKey` | korbit/models.py:29 | the integer key column accepts an integer as it is, a boolean as 0 or 1, an integral float as its integer, and a string that spells a signed integer as that integer; null, lists and dictionaries are refused |
| `Transactions.Insert` | korbit/models.py:46-67 | a record that cannot be mapped raises before the table is touched; a taken or unusable key leaves the table unchanged without raising; a new key adds exactly that row and leaves every other row as it was; rows stay stored under their own ids |
| `Transactions.InsertIsIdempotent` | korbit/models.py:63-67 | inserting the same record twice is the same as inserting it once |
| `Transactions.InsertNeedsTradeDetails` | korbit/models.py:54-63 | a record without `fee` or `fillsDetail` never reaches the table |
| `Transactions.InsertRecordOf` | korbit/models.py:46-67 | inserting the record of a row with a new usable key adds exactly that row; with a taken key the table is unchanged |
| `Transactions.InsertLatest` | korbit/models.py:71 | placing a row among sorted rows adds exactly that row |
| `Transactions.InsertLatestKeepsOrder` | korbit/models.py:71 | placing a row among rows sorted by descending completion time keeps them sorted |
| `Transactions.CollectsPrefixIsRecent` | korbit/models.py:71 | the first `limit` of all rows of a type, sorted by descending completion time, answer the query |
| `Transactions.SortedRows` | korbit/models.py:71 | the rows stored under a set of keys, each exactly once and nothing else, sorted by descending completion time |
| `Transactions.Recent` | korbit/models.py:69-75 | the answer has `min(limit, count)` rows, every row of the type when the limit is `None` or negative, each a distinct stored row of the type, sorted by descending completion time, and no row of the type left out completed later than one returned |
| `Transactions.RowLimit` | korbit/models.py:71 | `LIMIT n` lets `n` rows through; no limit or a negative one lets every row through |
| `Transactions.RecentSaleOrders` | korbit/models.py:70-71 | as `Transactions.Recent` for type `'sell'`, with a default limit of 1, and every row for `None` or a negative limit |
| `Transactions.RecentBuyingOrders` | korbit/models.py:74-75 | as `Transactions.Recent` for type `'buy'`, with a default limit of 1, and every row for `None` or a negative limit |
| `Legacy.Get` | korbit.py:26-36 | one GET to the production base URL, one answer consumed; the body exactly when the status is 200, an exception with the status otherwise |
| `Legacy.Post` | korbit.py:39-47 | as `Legacy.Get`, for one POST, one answer consumed |
| `Legacy.AccessToken` | korbit.py:50-66 | a token that loads is returned as it is, with no request and no expiry check; otherwise exactly one password grant is sent, its answer consumed, and its body is the token; the returned token is written back to the file on both paths; a failed grant raises before any write |
| `Legacy.TokenIsKeptForever` | korbit.py:53-66 | once a token has been obtained, the next call returns it again with no request, and rewrites the same file content |
| `Legacy.ExpiredTokenIsStillUsed` | korbit.py:53-55 | with an expired stored token the legacy manager returns it without a request, where the manager of `korbit/api.py` sends a grant request |
| `Legacy.NonceOffsets` | korbit.py:81-90 | at one clock reading the wallet nonce (`t+800`) exceeds the open-orders nonce (`t+200`); a later open-orders nonce exceeds an earlier wallet nonce exactly when the clock moved on by more than 600 ms |
| `Legacy.AuthGet` | korbit.py:82-84 | with a token carrying `access_token`, exactly one GET is added after those of the token manager, carrying the access token and the given nonce, and its answer is dispatched; otherwise nothing is sent and the call raises; a token failure propagates as it is |
| `Legacy.AuthGetIsGatewayGet` | korbit.py:82-84 | with a usable token the authenticated GET is exactly `Legacy.Get` from the token manager's world with the access token and the nonce |
| `Legacy.Wallet` | korbit.py:81-84 | the token file and writes are those the token manager left; with a usable token, `wallet()` adds one GET after the token manager's requests, to `user/wallet`, carrying `token['access_token']` and nonce `t+800`, consumes one answer and returns it dispatched; without one nothing is sent and it raises |
| `Legacy.ListOpenOrders` | korbit.py:87-90 | the token file and writes are those the token manager left; with a usable token, `list_open_orders()` adds one GET after the token manager's requests, to `user/orders/open`, carrying `token['access_token']` and nonce `t+200`, consumes one answer and returns it dispatched; without one nothing is sent and it raises |
| `Legacy.WalletNonceLeadsOpenOrders` | korbit.py:81-90 | from the same state with a usable token, the wallet call sends a nonce 600 above that of the open-orders call |

## Left out

- HTTP and JSON text: the transport is a script of replies (a status with an already parsed body, or no answer at all). Request encoding, headers and the text of exception messages are not modelled.
- The choice of base URL from `KORBIT_MODE`, and the credentials read from `os.environ` or `config`: they are parameters (`Tokens.Config`).
- File I/O: `load_dict`/`store_dict` are a map from file name to stored value. A file holding invalid JSON is treated like a missing one, since the bare `except` handles both the same way.
- The clock is read once per top-level call. It is given in whole seconds for token stamps and expiry, and in whole milliseconds for nonces; floating-point time is not modelled.
- Tokens.AccessToken: `issued_at` is stamped as an integer number of seconds where the source stores the float `time.time()`.
- Tokens.HasExpired: it compares against whole seconds instead of the float clock.
- Tokens.Numeric: the token manager follows Python 3's rules for `+` and `<`, under which non-numeric `issued_at`/`expires_in` raise and the token counts as absent. Under Python 2, two strings (or two lists) add without error and the sum compares greater than any float, so `has_expired` returns False and such a token is used as valid; that outcome is not modelled.
- Python 3's lazy `map` and `filter`: results are eager lists, as in Python 2, so a malformed row raises inside the operation.
- Iteration over a non-list (for example a dictionary answer from `user/orders/open`) is modelled as `TypeError`.
- Json.ParseInt: only plain digit strings are accepted; signs, surrounding blanks and underscores, which Python's `int()` also accepts, are not modelled.
- Orders.FromRaw: the `Order` class is not part of this model. Its behaviour comes from tests that pass integer prices and counts. Strings and floats are taken through Python's integer conversion; that is an assumption, not code in `korbit/models.py`. The amount is kept as the raw value.
- Orders.RoundedPrice: the contract does not fix which way a price halfway between two multiples of 100 goes, since no code in the `korbit` package or its tests determines it.
- Transactions.PrimaryKey: a null id, which SQLite would fill in by autoincrement, is treated as unusable. So are strings SQLite would also convert (a decimal point, as in `"5.0"`, or surrounding blanks). A list or dictionary id, which the database driver refuses to bind with an error other than `IntegrityError`, is treated as unusable too instead of raising. Keys outside the 64-bit range, for which the driver raises `OverflowError`, are not modelled.
- Transactions.Seconds: `long` exists only in Python 2, so the table model follows Python 2; under Python 3 `insert` would raise `NameError` at korbit/models.py:52.
- Transactions.FromRecord: `balances` is kept as the value; its `json.dumps` text is not modelled. The `datetime.fromtimestamp` conversion is modelled only as the whole seconds.
- Transactions.Recent: rows completed at the same time may come in any order; the database's tie order is not modelled.
- Api.CancelEach: its contract states only one answer per id. The cancels it sends are stated by `Api.CancelEachCancelsPrefix` and `Api.CancelEachStopsAtFirstFailure`.
- Api.PlaceOrder: the upper-casing of `currency` in the log message is not stated.
- Logging in `place_order` is left out.
- `get_constants`, `get_detailed_ticker`, `get_user_info`, `get_user_transactions`, `get_wallet` in `korbit/api.py`, and `constants`, `detailed_ticker` in `korbit.py`: each is a plain instance of `Gateway.Get` or `Api.AuthCall` with a fixed path, with no logic of its own.
- The SQLAlchemy engine, session and schema, and the `User` table: the session is a map from key to row.
- Concurrency and nonce collisions between processes are left out; the code does not address them.

## Findings

| source | as written | input that shows it | evidently intended | confidence | as-written member | corrected member |
|---|---|---|---|---|---|---|
| korbit/api.py:305 | `cancel_all_orders` calls `get_open_orders()` with no argument. `get_open_orders(order_type)` at korbit/api.py:238 has no default for it, so every call raises `TypeError` before any request | any state, for example a valid stored token and one open order `138502` | fetch every open order (`get_open_orders(None)`), then cancel each id in turn | high; not executed | `Api.CancelAllOrdersAsWritten` (with `Api.CancelAllDiscrepancy`) | `Api.CancelAllOrders` (with `Api.CancelAllCancelsOpenOrders`) |

=== FILE: api.dfy ===
/**
  The operations of `korbit/api.py` built on the gateway and the token
  manager: the public orderbook with its rows turned into `Order` values,
  the authenticated calls (a token and a nonce attached to every request),
  the client-side filter of open orders, bulk cancellation and order
  placement. Nonces are the clock in milliseconds.
 */
module Api {
  import opened Json
  import opened Env
  import opened Gateway
  import opened Tokens
  import opened Orders

  const OrderbookPath := "orderbook"
  const OpenOrdersPath := "user/orders/open"
  const CancelPath := "user/orders/cancel"

  // ---------------------------------------------------------------------
  // Authenticated calls

  /** The parameters of an authenticated call: the caller's, plus the access
      token and the nonce. */
  function Authorized(params: map<string, Value>, accessToken: Value, nonce: int): map<string, Value> {
    params["access_token" := accessToken]["nonce" := VInt(nonce)]
  }

  /** `req` is the call `verb path(params)` made with the access token of
      `token` and nonce `nonce`. */
  predicate Carries(req: Request, verb: Verb, url: string, params: map<string, Value>, token: Value, nonce: int) {
    && req.verb == verb
    && req.url == url
    && "access_token" in req.params && Item(token, "access_token") == Ok(req.params["access_token"])
    && "nonce" in req.params && req.params["nonce"] == VInt(nonce)
    && (forall k :: k in params && k != "access_token" && k != "nonce" ==>
          k in req.params && req.params[k] == params[k])
    && (forall k :: k in req.params ==> k in params || k == "access_token" || k == "nonce")
  }

  /** The shape every authenticated operation has: obtain a token, then issue
      one request carrying `token['access_token']` and `nonce()`, whose answer
      is dispatched as `get` and `post` do. Nothing is sent without a token
      from which the access token can be read, and the token manager's
      effects on the token file are the only writes. */
  function AuthCall(w: World, cfg: Config, verb: Verb, path: string, params: map<string, Value>): (r: Step<Value>)
    ensures var t := AccessToken(w, cfg);
      && r.world.files == t.world.files && r.world.writes == t.world.writes
      && r.world.clock == w.clock
      && (t.result.Err? ==> r.result == Err(t.result.error) && r.world == t.world)
      && (t.result.Ok? && !HasAccessToken(t.result) ==>
            r.result == Err(Item(t.result.value, "access_token").error) && r.world == t.world)
      && (HasAccessToken(t.result) ==>
            && |r.world.sent| == |t.world.sent| + 1
            && r.world.sent[..|t.world.sent|] == t.world.sent
            && Carries(r.world.sent[|t.world.sent|], verb, Url(cfg.baseUrl, path), params,
                       t.result.value, w.clock.millis)
            && r.world.replies == Remaining(t.world)
            && r.result == Dispatch(NextReply(t.world)))
  {
    var t := AccessToken(w, cfg);
    if t.result.Err? then Step(Err(t.result.error), t.world)
    else
      match Item(t.result.value, "access_token")
      case Err(e) => Step(Err(e), t.world)
      case Ok(accessToken) =>
        var req := Request(verb, Url(cfg.baseUrl, path), Authorized(params, accessToken, t.world.clock.millis));
        assert Carries(req, verb, Url(cfg.baseUrl, path), params, t.result.value, w.clock.millis);
        Exchange(t.world, req)
  }

  /** With a usable token, an authenticated call is exactly the gateway's
      `get` or `post` with the access token and the nonce added to the
      caller's parameters. */
  lemma AuthCallIsGatewayCall(w: World, cfg: Config, verb: Verb, path: string, params: map<string, Value>)
    requires HasAccessToken(AccessToken(w, cfg).result)
    ensures var t := AccessToken(w, cfg);
      var auth := Authorized(params, Item(t.result.value, "access_token").value, w.clock.millis);
      AuthCall(w, cfg, verb, path, params) ==
        if verb == HttpGet then Get(t.world, cfg.baseUrl, path, auth) else Post(t.world, cfg.baseUrl, path, auth)
  {
  }

  // ---------------------------------------------------------------------
  // Orderbook

  /** The orderbook after reshaping: the whole book, in which every key but
      `asks` and `bids` is as received, or one side of it. */
  datatype OrderbookView =
    | WholeBook(others: map<string, Value>, asks: seq<Order>, bids: seq<Order>)
    | OneSide(orders: seq<Order>)

  /** `orders` are the rows of `rows`, one for one and in order, each built
      as an order of `side`. */
  ghost predicate Decodes(side: string, rows: Value, orders: seq<Order>) {
    && rows.VList?
    && |orders| == |rows.items|
    && forall i :: 0 <= i < |orders| ==> FromRaw(side, rows.items[i]) == Ok(orders[i])
  }

  /** `map(lambda x: Order(side, x), rows)`, evaluated eagerly: the first row
      that cannot be built raises. */
  function MapRows(side: string, rows: seq<Value>): (r: Result<seq<Order>>)
    ensures r.Ok? <==> forall i :: 0 <= i < |rows| ==> FromRaw(side, rows[i]).Ok?
    ensures r.Ok? ==> Decodes(side, VList(rows), r.value)
  {
    if rows == [] then Ok([])
    else
      var first :- FromRaw(side, rows[0]);
      var rest :- MapRows(side, rows[1..]);
      Ok([first] + rest)
  }

  /** One side of the raw book: it must be a list. */
  function Side(side: string, rows: Value): (r: Result<seq<Order>>)
    ensures r.Ok? ==> Decodes(side, rows, r.value)
    ensures rows.VList? && (forall i :: 0 <= i < |rows.items| ==> FromRaw(side, rows.items[i]).Ok?) ==> r.Ok?
  {
    match rows
    case VList(items) => MapRows(side, items)
    case _ => Err(TypeError)
  }

  /** The book can be reshaped: it is a dictionary whose `asks` and `bids`
      are lists of well-formed rows. */
  ghost predicate Reshapable(book: Value) {
    && book.VDict? && "asks" in book.entries && "bids" in book.entries
    && book.entries["asks"].VList? && book.entries["bids"].VList?
    && (forall i :: 0 <= i < |book.entries["asks"].items| ==> FromRaw("ask", book.entries["asks"].items[i]).Ok?)
    && (forall i :: 0 <= i < |book.entries["bids"].items| ==> FromRaw("bid", book.entries["bids"].items[i]).Ok?)
  }

  /** What `get_orderbook(type)` does to the parsed book: asks become `'ask'`
      orders and bids `'bid'` orders; `type` equal to `'bids'` or `'asks'`
      selects that list, and any other value gives the whole book. */
  function Reshape(book: Value, kind: Option<string>): (r: Result<OrderbookView>)
    ensures r.Ok? <==> Reshapable(book)
    ensures r.Ok? && kind == Some("bids") ==>
      r.value.OneSide? && Decodes("bid", book.entries["bids"], r.value.orders)
    ensures r.Ok? && kind == Some("asks") ==>
      r.value.OneSide? && Decodes("ask", book.entries["asks"], r.value.orders)
    ensures r.Ok? && kind != Some("bids") && kind != Some("asks") ==>
      && r.value.WholeBook?
      && Decodes("ask", book.entries["asks"], r.value.asks)
      && Decodes("bid", book.entries["bids"], r.value.bids)
      && r.value.others.Keys == book.entries.Keys - {"asks", "bids"}
      && (forall k :: k in r.value.others ==> r.value.others[k] == book.entries[k])
  {
    var askRows :- Item(book, "asks");
    var asks :- Side("ask", askRows);
    var bidRows :- Item(book, "bids");
    var bids :- Side("bid", bidRows);
    if kind == Some("bids") then Ok(OneSide(bids))
    else if kind == Some("asks") then Ok(OneSide(asks))
    else Ok(WholeBook(book.entries - {"asks", "bids"}, asks, bids))
  }

  /** Orders built from the rows of one side carry that side. */
  lemma DecodedOrdersCarrySide(side: string, rows: Value, orders: seq<Order>)
    requires Decodes(side, rows, orders)
    ensures forall o :: o in orders ==> o.orderType == side
  {
    forall o | o in orders
      ensures o.orderType == side
    {
      var i :| 0 <= i < |orders| && orders[i] == o;
      assert FromRaw(side, rows.items[i]) == Ok(o);
    }
  }

  /** Selecting a side returns exactly that side of the whole book. */
  lemma SideSelectionAgrees(book: Value)
    requires Reshapable(book)
    ensures Reshape(book, Some("bids")) == Ok(OneSide(Reshape(book, None).value.bids))
    ensures Reshape(book, Some("asks")) == Ok(OneSide(Reshape(book, None).value.asks))
    ensures Reshape(book, Some("bid")) == Reshape(book, None)
  {
  }

  /** `get_orderbook(type)`: one public GET, then the reshaping. */
  function GetOrderbook(w: World, cfg: Config, kind: Option<string> := None): (r: Step<OrderbookView>)
    ensures r.world.sent == w.sent + [Request(HttpGet, Url(cfg.baseUrl, OrderbookPath), map[])]
    ensures r.world.replies == Remaining(w)
    ensures r.world.files == w.files && r.world.writes == w.writes && r.world.clock == w.clock
    ensures r.result.Ok? <==>
      NextReply(w).Reply? && NextReply(w).status == 200 && Reshapable(NextReply(w).body)
    ensures r.result.Ok? ==> r.result == Reshape(NextReply(w).body, kind)
  {
    var s := Get(w, cfg.baseUrl, OrderbookPath, map[]);
    match s.result
    case Err(e) => Step(Err(e), s.world)
    case Ok(book) => Step(Reshape(book, kind), s.world)
  }

  // ---------------------------------------------------------------------
  // Open orders

  /** `x['type'] == t` for one open order. */
  predicate OfType(x: Value, t: string) {
    Item(x, "type") == Ok(VStr(t))
  }

  /** `filter(lambda x: x['type'] == t, orders)`, evaluated eagerly: an order
      without a `type` raises. */
  function Select(orders: seq<Value>, t: string): (r: Result<seq<Value>>)
    ensures r.Ok? <==> forall i :: 0 <= i < |orders| ==> Item(orders[i], "type").Ok?
    ensures r.Ok? ==> |r.value| <= |orders|
  {
    if orders == [] then Ok([])
    else
      var ty :- Item(orders[0], "type");
      var rest :- Select(orders[1..], t);
      Ok(if ty == VStr(t) then [orders[0]] + rest else rest)
  }

  /** The filter keeps exactly the orders of type `t`: everything it returns
      was fetched and is of that type, and every fetched order of that type
      is returned. */
  lemma {:induction false} SelectMembership(orders: seq<Value>, t: string)
    requires Select(orders, t).Ok?
    ensures forall x :: x in Select(orders, t).value ==> x in orders && OfType(x, t)
    ensures forall i :: 0 <= i < |orders| && OfType(orders[i], t) ==> orders[i] in Select(orders, t).value
  {
    if orders != [] {
      var tail := orders[1..];
      assert orders == [orders[0]] + tail;
      SelectMembership(tail, t);
      SelectCons(orders[0], tail, t);
      forall i | 0 <= i < |orders| && OfType(orders[i], t)
        ensures orders[i] in Select(orders, t).value
      {
        if i > 0 {
          assert orders[i] == tail[i - 1];
        }
      }
    }
  }

  /** Filtering keeps the order of the list: filtering a concatenation
      concatenates the filtered parts. */
  lemma {:induction false} SelectAppend(a: seq<Value>, b: seq<Value>, t: string)
    requires Select(a, t).Ok? && Select(b, t).Ok?
    ensures Select(a + b, t) == Ok(Select(a, t).value + Select(b, t).value)
  {
    if a == [] {
      assert a + b == b;
      assert Select(a, t).value + Select(b, t).value == Select(b, t).value;
    } else {
      var tail := a[1..];
      assert a == [a[0]] + tail;
      assert a + b == [a[0]] + (tail + b);
      SelectAppend(tail, b, t);
      SelectCons(a[0], tail, t);
      SelectCons(a[0], tail + b, t);
      var head := if OfType(a[0], t) then [a[0]] else [];
      var x, y := Select(tail, t).value, Select(b, t).value;
      assert Select(a, t).value == head + x;
      assert Select(a + b, t).value == head + (x + y);
      assert head + (x + y) == (head + x) + y;
    }
  }

  /** One step of the filter. */
  lemma SelectCons(x: Value, rest: seq<Value>, t: string)
    requires Item(x, "type").Ok? && Select(rest, t).Ok?
    ensures Select([x] + rest, t) ==
      Ok((if OfType(x, t) then [x] else []) + Select(rest, t).value)
  {
    var s := [x] + rest;
    assert s[0] == x && s[1..] == rest;
    var ty := Item(x, "type").value;
    assert Select(s, t) == Ok(if ty == VStr(t) then [x] + Select(rest, t).value else Select(rest, t).value);
    assert [] + Select(rest, t).value == Select(rest, t).value;
  }

  /** A list of orders that are all of type `t` passes the filter whole. */
  lemma {:induction false} SelectKeepsMatching(orders: seq<Value>, t: string)
    requires forall i :: 0 <= i < |orders| ==> OfType(orders[i], t)
    ensures Select(orders, t) == Ok(orders)
  {
    if orders != [] {
      SelectKeepsMatching(orders[1..], t);
      assert [orders[0]] + orders[1..] == orders;
    }
  }

  /** A list of orders none of which is of type `t` filters to nothing. */
  lemma {:induction false} SelectDropsOthers(orders: seq<Value>, t: string)
    requires forall i :: 0 <= i < |orders| ==> Item(orders[i], "type").Ok? && !OfType(orders[i], t)
    ensures Select(orders, t) == Ok([])
  {
    if orders != [] {
      SelectDropsOthers(orders[1..], t);
    }
  }

  /** The client-side filter applied to the fetched orders. */
  function FilterOrders(orders: Value, t: string): (r: Result<Value>)
    ensures r.Ok? <==> orders.VList? && Select(orders.items, t).Ok?
    ensures r.Ok? ==> r.value == VList(Select(orders.items, t).value)
  {
    match orders
    case VList(items) =>
      var kept :- Select(items, t);
      Ok(VList(kept))
    case _ => Err(TypeError)
  }

  /** `get_open_orders(order_type)`: the fetched list as it is for `None`,
      filtered by type otherwise. */
  function GetOpenOrders(w: World, cfg: Config, orderType: Option<string>): (r: Step<Value>)
    ensures var s := AuthCall(w, cfg, HttpGet, OpenOrdersPath, map[]);
      && r.world == s.world
      && (orderType.None? ==> r.result == s.result)
      && (orderType.Some? && s.result.Ok? ==> r.result == FilterOrders(s.result.value, orderType.value))
      && (s.result.Err? ==> r.result == s.result)
    // with a usable token, the fetched list is the answer to the GET
    ensures var t := AccessToken(w, cfg);
      HasAccessToken(t.result) ==>
        && (orderType.None? ==> r.result == Dispatch(NextReply(t.world)))
        && (orderType.Some? && Dispatch(NextReply(t.world)).Ok? ==>
              r.result == FilterOrders(NextReply(t.world).body, orderType.value))
  {
    var s := AuthCall(w, cfg, HttpGet, OpenOrdersPath, map[]);
    if s.result.Err? || orderType.None? then s
    else Step(FilterOrders(s.result.value, orderType.value), s.world)
  }

  // ---------------------------------------------------------------------
  // Cancellation

  /** The ids of the cancel requests to `url` among `reqs`, in order. */
  function CancelledIds(reqs: seq<Request>, url: string): seq<Value> {
    if reqs == [] then []
    else
      var last := reqs[|reqs| - 1];
      CancelledIds(reqs[..|reqs| - 1], url) +
        (if last.verb == HttpPost && last.url == url && "id" in last.params then [last.params["id"]] else [])
  }

  lemma CancelledIdsSnoc(reqs: seq<Request>, req: Request, url: string)
    ensures CancelledIds(reqs + [req], url) ==
      CancelledIds(reqs, url) +
        (if req.verb == HttpPost && req.url == url && "id" in req.params then [req.params["id"]] else [])
  {
    assert (reqs + [req])[..|reqs + [req]| - 1] == reqs;
  }

  /** Token requests cancel nothing. */
  lemma AccessTokenCancelsNothing(w: World, cfg: Config)
    ensures CancelledIds(AccessToken(w, cfg).world.sent, Url(cfg.baseUrl, CancelPath)) ==
            CancelledIds(w.sent, Url(cfg.baseUrl, CancelPath))
  {
    var url := Url(cfg.baseUrl, CancelPath);
    var g := GrantRequest(cfg);
    var sent := AccessToken(w, cfg).world.sent;
    UrlInjective(cfg.baseUrl, TokenPath, CancelPath);
    assert g.url != url;
    if StateOf(w) == Valid {
      assert sent == w.sent;
    } else {
      CancelledIdsSnoc(w.sent, g, url);
      if sent != w.sent + [g] {
        assert sent == (w.sent + [g]) + [g];
        CancelledIdsSnoc(w.sent + [g], g, url);
      }
    }
  }

  /** An authenticated call adds the id of its own request to the cancels
      when, and only when, it is a cancel and a usable token let it go out. */
  lemma AuthCallCancels(w: World, cfg: Config, verb: Verb, path: string, params: map<string, Value>)
    ensures var url := Url(cfg.baseUrl, CancelPath);
      var r := AuthCall(w, cfg, verb, path, params);
      && (path != CancelPath ==> CancelledIds(r.world.sent, url) == CancelledIds(w.sent, url))
      && (verb == HttpPost && path == CancelPath && "id" in params ==>
            CancelledIds(r.world.sent, url) ==
              CancelledIds(w.sent, url) + (if HasAccessToken(AccessToken(w, cfg).result) then [params["id"]] else []))
  {
    var url := Url(cfg.baseUrl, CancelPath);
    var t := AccessToken(w, cfg);
    var r := AuthCall(w, cfg, verb, path, params);
    AccessTokenCancelsNothing(w, cfg);
    if r.world.sent != t.world.sent {
      var req := r.world.sent[|t.world.sent|];
      assert r.world.sent == t.world.sent + [req];
      CancelledIdsSnoc(t.world.sent, req, url);
      if path != CancelPath {
        UrlInjective(cfg.baseUrl, path, CancelPath);
      }
    }
  }

  /** `cancel_order(order_id)`: with a usable token, one cancel of `id` is
      sent and its answer returned; without one, nothing is cancelled. */
  function CancelOrder(w: World, cfg: Config, id: Value): (r: Step<Value>)
    ensures var url := Url(cfg.baseUrl, CancelPath);
      var t := AccessToken(w, cfg);
      && CancelledIds(r.world.sent, url) ==
           CancelledIds(w.sent, url) + (if HasAccessToken(t.result) then [id] else [])
      && (HasAccessToken(t.result) ==>
            && |r.world.sent| == |t.world.sent| + 1
            && r.world.sent[..|t.world.sent|] == t.world.sent
            && Carries(r.world.sent[|t.world.sent|], HttpPost, url, map["id" := id], t.result.value, w.clock.millis)
            && r.world.replies == Remaining(t.world)
            && r.result == Dispatch(NextReply(t.world)))
      && (!HasAccessToken(t.result) ==> r.result.Err? && r.world == t.world)
      && r.world.files == t.world.files && r.world.writes == t.world.writes && r.world.clock == w.clock
  {
    AuthCallCancels(w, cfg, HttpPost, CancelPath, map["id" := id]);
    AuthCall(w, cfg, HttpPost, CancelPath, map["id" := id])
  }

  /** `[order['id'] for order in orders]`. */
  function IdsOf(orders: seq<Value>): (r: Result<seq<Value>>)
    ensures r.Ok? <==> forall i :: 0 <= i < |orders| ==> Item(orders[i], "id").Ok?
    ensures r.Ok? ==> |r.value| == |orders|
    ensures r.Ok? ==> forall i :: 0 <= i < |orders| ==> Item(orders[i], "id") == Ok(r.value[i])
  {
    if orders == [] then Ok([])
    else
      var id :- Item(orders[0], "id");
      var rest :- IdsOf(orders[1..]);
      Ok([id] + rest)
  }

  /** `map(cancel_order, ids)`, evaluated eagerly: one cancel per id, in
      order, stopping at the first failure; on success, one answer per id. */
  function CancelEach(w: World, cfg: Config, ids: seq<Value>): (r: Step<seq<Value>>)
    ensures r.result.Ok? ==> |r.result.value| == |ids|
    decreases |ids|
  {
    if ids == [] then Step(Ok([]), w)
    else
      var c := CancelOrder(w, cfg, ids[0]);
      if c.result.Err? then Step(Err(c.result.error), c.world)
      else
        var rest := CancelEach(c.world, cfg, ids[1..]);
        if rest.result.Err? then Step(Err(rest.result.error), rest.world)
        else Step(Ok([c.result.value] + rest.result.value), rest.world)
  }

  /** The cancels `CancelEach` sends are always a prefix of `ids` (orders
      before a failure stay cancelled, those after it are never tried), and
      all of `ids`, in order, when every cancel succeeds. */
  lemma {:induction false} CancelEachCancelsPrefix(w: World, cfg: Config, ids: seq<Value>)
    ensures var url := Url(cfg.baseUrl, CancelPath);
      var r := CancelEach(w, cfg, ids);
      && CancelledIds(w.sent, url) <= CancelledIds(r.world.sent, url)
      && CancelledIds(r.world.sent, url) <= CancelledIds(w.sent, url) + ids
      && (r.result.Ok? ==> CancelledIds(r.world.sent, url) == CancelledIds(w.sent, url) + ids)
    decreases |ids|
  {
    var url := Url(cfg.baseUrl, CancelPath);
    var before := CancelledIds(w.sent, url);
    if ids == [] {
      assert before + ids == before;
    } else {
      var c := CancelOrder(w, cfg, ids[0]);
      var mid := CancelledIds(c.world.sent, url);
      CancelEachStep(w, cfg, ids);
      SplitFirst(before, ids);
      if c.result.Ok? {
        assert mid == before + [ids[0]];
        CancelEachCancelsPrefix(c.world, cfg, ids[1..]);
      } else {
        assert mid == before || mid == before + [ids[0]];
      }
    }
  }

  /** Taking the first of `ids` onto `a`. */
  lemma SplitFirst(a: seq<Value>, ids: seq<Value>)
    requires ids != []
    ensures a + ids == (a + [ids[0]]) + ids[1..]
    ensures a <= a + [ids[0]] <= a + ids
  {
    assert ids == [ids[0]] + ids[1..];
  }

  /** One step of `CancelEach`: the first cancel, then the rest only when it
      succeeded. */
  lemma CancelEachStep(w: World, cfg: Config, ids: seq<Value>)
    requires ids != []
    ensures var c := CancelOrder(w, cfg, ids[0]);
      var r := CancelEach(w, cfg, ids);
      && (c.result.Err? ==> r.world == c.world && r.result.Err?)
      && (c.result.Ok? ==> r.world == CancelEach(c.world, cfg, ids[1..]).world
                           && r.result.Ok? == CancelEach(c.world, cfg, ids[1..]).result.Ok?)
  {
  }

  /** The run of `CancelEach` on `ids` is `n` accepted cancels followed by a
      cancel of `ids[n]` that fails, and it leaves `world` behind. */
  ghost predicate FailsAt(w: World, cfg: Config, ids: seq<Value>, n: int, world: World) {
    && 0 <= n < |ids|
    && CancelEach(w, cfg, ids[..n]).result.Ok?
    && CancelOrder(CancelEach(w, cfg, ids[..n]).world, cfg, ids[n]).result.Err?
    && world == CancelOrder(CancelEach(w, cfg, ids[..n]).world, cfg, ids[n]).world
  }

  /** A failed bulk cancel stops at its first failure: it is some accepted
      cancels, then one that fails, and nothing is sent after that. */
  lemma {:induction false} CancelEachStopsAtFirstFailure(w: World, cfg: Config, ids: seq<Value>)
    ensures CancelEach(w, cfg, ids).result.Err? ==>
      exists n :: FailsAt(w, cfg, ids, n, CancelEach(w, cfg, ids).world)
    decreases |ids|
  {
    var r := CancelEach(w, cfg, ids);
    if ids != [] && r.result.Err? {
      var c := CancelOrder(w, cfg, ids[0]);
      CancelEachStep(w, cfg, ids);
      if c.result.Err? {
        assert ids[..0] == [];
        assert FailsAt(w, cfg, ids, 0, r.world);
      } else {
        var tail := ids[1..];
        CancelEachStopsAtFirstFailure(c.world, cfg, tail);
        var m :| FailsAt(c.world, cfg, tail, m, CancelEach(c.world, cfg, tail).world);
        PrefixStep(w, cfg, ids, m);
        assert FailsAt(w, cfg, ids, m + 1, r.world);
      }
    }
  }

  /** Running `CancelEach` on the first `m + 1` ids is the first cancel and
      then `CancelEach` on the next `m`. */
  lemma PrefixStep(w: World, cfg: Config, ids: seq<Value>, m: int)
    requires 0 <= m < |ids| - 1
    requires CancelOrder(w, cfg, ids[0]).result.Ok?
    ensures var c := CancelOrder(w, cfg, ids[0]);
      var p := CancelEach(w, cfg, ids[..m + 1]);
      var q := CancelEach(c.world, cfg, ids[1..][..m]);
      && p.world == q.world && p.result.Ok? == q.result.Ok?
      && ids[1..][m] == ids[m + 1]
  {
    var p := ids[..m + 1];
    assert p[0] == ids[0] && p[1..] == ids[1..][..m];
    CancelEachStep(w, cfg, p);
  }

  /** `cancel_all_orders()` as evidently intended: fetch every open order
      (`get_open_orders(None)`), collect their ids, then cancel each; on
      success there is one answer per open order. */
  function CancelAllOrders(w: World, cfg: Config): (r: Step<seq<Value>>)
    ensures var open := GetOpenOrders(w, cfg, None);
      r.result.Ok? ==>
        && open.result.Ok? && open.result.value.VList?
        && IdsOf(open.result.value.items).Ok?
        && |r.result.value| == |open.result.value.items|
  {
    var open := GetOpenOrders(w, cfg, None);
    if open.result.Err? then Step(Err(open.result.error), open.world)
    else
      match open.result.value
      case VList(orders) =>
        (match IdsOf(orders)
         case Err(e) => Step(Err(e), open.world)
         case Ok(ids) => CancelEach(open.world, cfg, ids))
      case _ => Step(Err(TypeError), open.world)
  }

  /** Fetching the open orders cancels nothing; the cancels that follow are
      a prefix of the open orders' ids, and all of them, in order, when the
      operation succeeds. */
  lemma CancelAllCancelsOpenOrders(w: World, cfg: Config)
    ensures var url := Url(cfg.baseUrl, CancelPath);
      var open := GetOpenOrders(w, cfg, None);
      var r := CancelAllOrders(w, cfg);
      && CancelledIds(w.sent, url) <= CancelledIds(r.world.sent, url)
      && (open.result.Ok? && open.result.value.VList? && IdsOf(open.result.value.items).Ok? ==>
            CancelledIds(r.world.sent, url) <= CancelledIds(w.sent, url) + IdsOf(open.result.value.items).value)
      && (r.result.Ok? ==>
            CancelledIds(r.world.sent, url) == CancelledIds(w.sent, url) + IdsOf(open.result.value.items).value)
  {
    var url := Url(cfg.baseUrl, CancelPath);
    var open := GetOpenOrders(w, cfg, None);
    AuthCallCancels(w, cfg, HttpGet, OpenOrdersPath, map[]);
    assert CancelledIds(open.world.sent, url) == CancelledIds(w.sent, url);
    CancelAllStep(w, cfg);
    if open.result.Ok? && open.result.value.VList? && IdsOf(open.result.value.items).Ok? {
      CancelEachCancelsPrefix(open.world, cfg, IdsOf(open.result.value.items).value);
    }
  }

  /** `CancelAllOrders` is the fetch followed, when the ids can be collected,
      by `CancelEach` on them. */
  lemma CancelAllStep(w: World, cfg: Config)
    ensures var open := GetOpenOrders(w, cfg, None);
      var r := CancelAllOrders(w, cfg);
      if open.result.Ok? && open.result.value.VList? && IdsOf(open.result.value.items).Ok? then
        r == CancelEach(open.world, cfg, IdsOf(open.result.value.items).value)
      else
        r.world == open.world && r.result.Err?
  {
  }

  /** `cancel_all_orders()` as written: it calls `get_open_orders()` without
      the argument that function requires, so Python raises `TypeError`
      before any request is made. */
  function CancelAllOrdersAsWritten(w: World, cfg: Config): (r: Step<seq<Value>>)
    ensures r.result == Err(MissingArgument("order_type"))
    ensures r.world == w
  {
    Step(Err(MissingArgument("order_type")), w)
  }

  // A world in which the difference shows: a valid stored token and one open
  // order, whose cancellation the exchange accepts.
  const WitnessToken := VDict(map["access_token" := VStr("t"), "issued_at" := VInt(0), "expires_in" := VInt(3600)])
  const WitnessOrder := VDict(map["id" := VStr("138502"), "type" := VStr("bid")])
  const WitnessConfig := Config("https://api.korbit.co.kr/v1", "key", "secret", "user", "pass")
  const WitnessWorld := World(Clock(10, 10000), map[TokenFile := WitnessToken], [],
                              [Reply(200, VList([WitnessOrder])), Reply(200, VDict(map[]))], [])

  /** In the witness world the stored token is valid and the open orders are
      the one order. */
  lemma WitnessOpenOrders()
    ensures var open := GetOpenOrders(WitnessWorld, WitnessConfig, None);
      && open.result == Ok(VList([WitnessOrder]))
      && StateOf(open.world) == Valid
      && NextReply(open.world) == Reply(200, VDict(map[]))
      && CancelledIds(open.world.sent, Url(WitnessConfig.baseUrl, CancelPath)) == []
  {
    var w, cfg := WitnessWorld, WitnessConfig;
    WitnessTokenIsUsable();
    var t := AccessToken(w, cfg);
    var open := GetOpenOrders(w, cfg, None);
    assert open.result == Dispatch(NextReply(t.world));
    assert open.world.replies == Remaining(w);
    assert StateOf(open.world) == Valid by {
      assert open.world.files == w.files && open.world.clock == w.clock;
    }
    AuthCallCancels(w, cfg, HttpGet, OpenOrdersPath, map[]);
  }

  /** In the witness world the stored token is returned as it is, and it
      carries an access token. */
  lemma WitnessTokenIsUsable()
    ensures StateOf(WitnessWorld) == Valid
    ensures AccessToken(WitnessWorld, WitnessConfig) == Step(Ok(WitnessToken), WitnessWorld)
    ensures HasAccessToken(AccessToken(WitnessWorld, WitnessConfig).result)
  {
    assert Deadline(WitnessToken) == Ok(3600.0);
    assert Item(WitnessToken, "access_token") == Ok(VStr("t"));
  }

  /** The one cancel that follows is sent and accepted. */
  lemma WitnessCancelSucceeds()
    ensures var open := GetOpenOrders(WitnessWorld, WitnessConfig, None);
      var r := CancelEach(open.world, WitnessConfig, [VStr("138502")]);
      && r.result.Ok?
      && CancelledIds(r.world.sent, Url(WitnessConfig.baseUrl, CancelPath)) == [VStr("138502")]
  {
    var open := GetOpenOrders(WitnessWorld, WitnessConfig, None);
    WitnessOpenOrders();
    assert open.world.files[TokenFile] == WitnessToken by {
      WitnessTokenIsUsable();
    }
    CancelOneAccepted(open.world, VStr("138502"));
  }

  /** From a world holding the witness token as a valid token, where nothing
      has been cancelled and the next answer is a 200, cancelling one id
      sends it and succeeds. */
  lemma CancelOneAccepted(u: World, id: Value)
    requires StateOf(u) == Valid && u.files[TokenFile] == WitnessToken
    requires NextReply(u).Reply? && NextReply(u).status == 200
    requires CancelledIds(u.sent, Url(WitnessConfig.baseUrl, CancelPath)) == []
    ensures var r := CancelEach(u, WitnessConfig, [id]);
      && r.result.Ok?
      && CancelledIds(r.world.sent, Url(WitnessConfig.baseUrl, CancelPath)) == [id]
  {
    assert AccessToken(u, WitnessConfig) == Step(Ok(WitnessToken), u);
    assert Item(WitnessToken, "access_token") == Ok(VStr("t"));
    var c := CancelOrder(u, WitnessConfig, id);
    assert c.result == Dispatch(NextReply(u));
    assert CancelledIds(c.world.sent, Url(WitnessConfig.baseUrl, CancelPath)) == [] + [id];
    assert [id][1..] == [];
    assert CancelEach(u, WitnessConfig, [id]).world == c.world;
  }

  /** The ids of the witness world's open orders. */
  lemma WitnessIds()
    ensures IdsOf([WitnessOrder]) == Ok([VStr("138502")])
  {
    assert [WitnessOrder][1..] == [];
    assert IdsOf([]) == Ok([]);
    assert Item(WitnessOrder, "id") == Ok(VStr("138502"));
    assert [VStr("138502")] + [] == [VStr("138502")];
  }

  /** With a valid token and one open order `138502`, the intended operation
      cancels that order and succeeds; the one as written fails and cancels
      nothing. */
  lemma CancelAllDiscrepancy()
    ensures var url := Url(WitnessConfig.baseUrl, CancelPath);
      && CancelAllOrders(WitnessWorld, WitnessConfig).result.Ok?
      && CancelledIds(CancelAllOrders(WitnessWorld, WitnessConfig).world.sent, url) == [VStr("138502")]
      && CancelAllOrdersAsWritten(WitnessWorld, WitnessConfig).result.Err?
      && CancelledIds(CancelAllOrdersAsWritten(WitnessWorld, WitnessConfig).world.sent, url) == []
  {
    var url := Url(WitnessConfig.baseUrl, CancelPath);
    var open := GetOpenOrders(WitnessWorld, WitnessConfig, None);
    var r := CancelAllOrders(WitnessWorld, WitnessConfig);
    WitnessCancelAll();
    WitnessCancelSucceeds();
    assert r == CancelEach(open.world, WitnessConfig, [VStr("138502")]);
    assert r.result.Ok? && CancelledIds(r.world.sent, url) == [VStr("138502")];
    assert CancelAllOrdersAsWritten(WitnessWorld, WitnessConfig).world.sent == [];
  }

  /** In the witness world bulk cancellation is `CancelEach` on the one id,
      from the world the fetch left. */
  lemma WitnessCancelAll()
    ensures var open := GetOpenOrders(WitnessWorld, WitnessConfig, None);
      CancelAllOrders(WitnessWorld, WitnessConfig) == CancelEach(open.world, WitnessConfig, [VStr("138502")])
  {
    WitnessOpenOrders();
    WitnessIds();
    CancelAllStep(WitnessWorld, WitnessConfig);
  }

  // ---------------------------------------------------------------------
  // Order placement

  /** The form of an order: the price is coerced to an integer. */
  function OrderForm(price: real, currency: string, coinAmount: Value, orderType: string): map<string, Value> {
    map[
      "type" := VStr(orderType),
      "currency" := VStr(currency),
      "coin_amount" := coinAmount,
      "price" := VInt(Truncate(price))]
  }

  /** `place_order(order, price, currency, coin_amount, order_type)`, with
      the source's defaults: with a usable token, one authenticated POST to
      `user/orders/<order>` whose price is the given price truncated toward
      zero, and its answer; without one, nothing is sent. */
  function PlaceOrder(w: World, cfg: Config, order: string := "buy", price: real := 0.0, currency: string := "krw",
                      coinAmount: Value := VReal(0.0), orderType: string := "limit"): (r: Step<Value>)
    ensures var t := AccessToken(w, cfg);
      HasAccessToken(t.result) ==>
        && |r.world.sent| == |t.world.sent| + 1
        && r.world.sent[..|t.world.sent|] == t.world.sent
        && var req := r.world.sent[|t.world.sent|];
        && Carries(req, HttpPost, Url(cfg.baseUrl, "user/orders/" + order),
                   OrderForm(price, currency, coinAmount, orderType), t.result.value, w.clock.millis)
        && "price" in req.params && req.params["price"].VInt?
        && (price >= 0.0 ==> req.params["price"].i as real <= price < req.params["price"].i as real + 1.0)
        && (price < 0.0 ==> req.params["price"].i as real - 1.0 < price <= req.params["price"].i as real)
        && r.world.replies == Remaining(t.world)
        && r.result == Dispatch(NextReply(t.world))
    ensures var t := AccessToken(w, cfg);
      !HasAccessToken(t.result) ==> r.result.Err? && r.world == t.world
  {
    AuthCall(w, cfg, HttpPost, "user/orders/" + order, OrderForm(price, currency, coinAmount, orderType))
  }

  /** With a usable token, placing an order is the gateway's `post` to
      `user/orders/<order>` of the order form with the access token and the
      nonce added. */
  lemma PlaceOrderIsGatewayPost(w: World, cfg: Config, order: string, price: real, currency: string,
                                coinAmount: Value, orderType: string)
    requires HasAccessToken(AccessToken(w, cfg).result)
    ensures var t := AccessToken(w, cfg);
      var form := Authorized(OrderForm(price, currency, coinAmount, orderType),
                             Item(t.result.value, "access_token").value, w.clock.millis);
      PlaceOrder(w, cfg, order, price, currency, coinAmount, orderType) ==
        Post(t.world, cfg.baseUrl, "user/orders/" + order, form)
  {
    AuthCallIsGatewayCall(w, cfg, HttpPost, "user/orders/" + order, OrderForm(price, currency, coinAmount, orderType));
  }
}

=== FILE: env.dfy ===
/**
  The collaborators the client talks to, made explicit: the wall clock, the
  file the token is kept in, and the exchange's HTTP endpoint. A `World` is
  their state; every operation takes one and returns the next one with its
  result, so that what an operation sent and stored can be stated.
 */
module Env {
  import opened Json

  datatype Verb = HttpGet | HttpPost

  /** One HTTP request: method, full URL, and query or form parameters. */
  datatype Request = Request(verb: Verb, url: string, params: map<string, Value>)

  /** What the transport hands back for a request: a status code with the
      parsed body, or nothing at all (connection refused, timeout). */
  datatype Reply = Reply(status: int, body: Value) | NoReply

  /** One `store_dict` call. */
  datatype Write = Write(name: string, contents: Value)

  /** One reading of `time.time()`: in whole seconds (token stamps) and in
      whole milliseconds (nonces). */
  datatype Clock = Clock(seconds: int, millis: int)

  /** `files` are the stored dictionaries by file name; `writes` logs every
      store; `replies` are the transport's answers to the coming requests, in
      order; `sent` logs every request issued. */
  datatype World = World(
    clock: Clock,
    files: map<string, Value>,
    writes: seq<Write>,
    replies: seq<Reply>,
    sent: seq<Request>)

  /** An operation's result paired with the world it leaves behind. */
  datatype Step<+T> = Step(result: Result<T>, world: World)

  /** The answer the next request will get; an exhausted transport answers
      nothing. */
  function NextReply(w: World): Reply {
    if |w.replies| > 0 then w.replies[0] else NoReply
  }

  /** The answers left once the next one has been consumed. */
  function Remaining(w: World): seq<Reply> {
    if |w.replies| > 0 then w.replies[1..] else []
  }

  /** Issues `req`: logs it and consumes one answer. */
  function Send(w: World, req: Request): (Reply, World) {
    (NextReply(w), w.(replies := Remaining(w), sent := w.sent + [req]))
  }

  /** `load_dict(name)`: the stored dictionary, or the `IOError` a missing or
      unreadable file raises. */
  function LoadDict(w: World, name: string): (r: Result<Value>)
    ensures r.Ok? <==> name in w.files
    ensures r.Ok? ==> r.value == w.files[name]
  {
    if name in w.files then Ok(w.files[name]) else Err(IOError)
  }

  /** `store_dict(name, v)`: overwrites the file and logs the write; nothing
      else changes. */
  function StoreDict(w: World, name: string, v: Value): (r: World)
    ensures name in r.files && r.files[name] == v
    ensures forall n :: n != name ==> (n in r.files <==> n in w.files)
    ensures forall n :: n != name && n in w.files ==> r.files[n] == w.files[n]
    ensures r.writes == w.writes + [Write(name, v)]
    ensures r.clock == w.clock && r.replies == w.replies && r.sent == w.sent
  {
    w.(files := w.files[name := v], writes := w.writes + [Write(name, v)])
  }
}

=== FILE: gateway.dfy ===
/**
  The HTTP gateway of `korbit/api.py` (`get`, `post`): a request to
  `base + "/" + path`, whose answer is the parsed body when the status is 200
  and an exception carrying the status otherwise. There is no retry here.
 */
module Gateway {
  import opened Json
  import opened Env

  /** The endpoint a path names under a base URL. */
  function Url(base: string, path: string): string {
    base + "/" + path
  }

  /** The status test both `get` and `post` apply to an answer. */
  function Dispatch(reply: Reply): (r: Result<Value>)
    ensures r.Ok? <==> reply.Reply? && reply.status == 200
    ensures r.Ok? ==> r.value == reply.body
    ensures reply.Reply? && reply.status != 200 ==> r == Err(RemoteError(reply.status))
    ensures reply.NoReply? ==> r == Err(ConnectionError)
  {
    match reply
    case Reply(status, body) => if status == 200 then Ok(body) else Err(RemoteError(status))
    case NoReply => Err(ConnectionError)
  }

  /** Sends one request and dispatches on its answer. */
  function Exchange(w: World, req: Request): (r: Step<Value>)
    ensures r.world == w.(replies := Remaining(w), sent := w.sent + [req])
    ensures r.result == Dispatch(NextReply(w))
  {
    var (reply, w') := Send(w, req);
    Step(Dispatch(reply), w')
  }

  /** `get(path, **params)`: one GET with the parameters in the query; the
      body when the answer is a 200, an exception otherwise; nothing but the
      transport changes. */
  function Get(w: World, base: string, path: string, params: map<string, Value>): (r: Step<Value>)
    ensures r.world.sent == w.sent + [Request(HttpGet, Url(base, path), params)]
    ensures r.world.files == w.files && r.world.writes == w.writes && r.world.clock == w.clock
    ensures r.world.replies == Remaining(w)
    ensures r.result.Ok? <==> NextReply(w).Reply? && NextReply(w).status == 200
    ensures r.result.Ok? ==> r.result.value == NextReply(w).body
    ensures NextReply(w).Reply? && NextReply(w).status != 200 ==>
      r.result == Err(RemoteError(NextReply(w).status))
  {
    Exchange(w, Request(HttpGet, Url(base, path), params))
  }

  /** `post(path, **data)`: as `Get`, with the parameters in the form body. */
  function Post(w: World, base: string, path: string, data: map<string, Value>): (r: Step<Value>)
    ensures r.world.sent == w.sent + [Request(HttpPost, Url(base, path), data)]
    ensures r.world.files == w.files && r.world.writes == w.writes && r.world.clock == w.clock
    ensures r.world.replies == Remaining(w)
    ensures r.result.Ok? <==> NextReply(w).Reply? && NextReply(w).status == 200
    ensures r.result.Ok? ==> r.result.value == NextReply(w).body
    ensures NextReply(w).Reply? && NextReply(w).status != 200 ==>
      r.result == Err(RemoteError(NextReply(w).status))
  {
    Exchange(w, Request(HttpPost, Url(base, path), data))
  }

  /** Two different paths under one base are two different endpoints. */
  lemma UrlInjective(base: string, p: string, q: string)
    requires p != q
    ensures Url(base, p) != Url(base, q)
  {
    var n := |base| + 1;
    assert Url(base, p)[n..] == p;
    assert Url(base, q)[n..] == q;
  }
}

=== FILE: json.dfy ===
/**
  JSON values as the client sees them once a response body, a stored token
  file or a transaction record has been parsed, together with the error kinds
  the client raises and the handful of Python conversions it applies to such
  values (`v[key]`, `int(v)`, `long(v)`).
 */
module Json {

  /** A parsed JSON value. Integral numbers and non-integral numbers are kept
      apart, as Python's `json` module does (`int` versus `float`). */
  datatype Value =
    | VNull
    | VBool(b: bool)
    | VInt(i: int)
    | VReal(r: real)
    | VStr(s: string)
    | VList(items: seq<Value>)
    | VDict(entries: map<string, Value>)

  /** The exceptions the client can raise. */
  datatype Error =
    | RemoteError(status: int)       // the server answered with a status other than 200
    | ConnectionError                // no answer at all
    | IOError                        // a file that cannot be read
    | KeyError(key: string)          // a dictionary lacks a key
    | TypeError                      // an operation applied to a value of the wrong shape
    | ValueError                     // a string that is not a number
    | MissingArgument(name: string)  // a call that omits a required argument

  /** An optional argument: Python's `None` or a value. */
  datatype Option<+T> = None | Some(value: T)

  /** A value or the exception raised instead; usable with `:-`. */
  datatype Result<+T> = Ok(value: T) | Err(error: Error) {

    predicate IsFailure() {
      Err?
    }

    function PropagateFailure<U>(): Result<U>
      requires Err?
    {
      Err(error)
    }

    function Extract(): T
      requires Ok?
    {
      value
    }

    /** The value, or `default` when an exception was raised. */
    function GetOr(default: T): T {
      if Ok? then value else default
    }
  }

  /** Python's `v[key]` for a string key: a dictionary yields the entry or
      raises `KeyError`; any other value raises `TypeError`. */
  function Item(v: Value, key: string): (r: Result<Value>)
    ensures r.Ok? <==> v.VDict? && key in v.entries
    ensures r.Ok? ==> r.value == v.entries[key]
    ensures v.VDict? && key !in v.entries ==> r == Err(KeyError(key))
    ensures !v.VDict? ==> r == Err(TypeError)
  {
    match v
    case VDict(m) => if key in m then Ok(m[key]) else Err(KeyError(key))
    case _ => Err(TypeError)
  }

  predicate IsDigit(c: char) {
    '0' <= c <= '9'
  }

  predicate AllDigits(s: string) {
    forall i :: 0 <= i < |s| ==> IsDigit(s[i])
  }

  /** The number a string of decimal digits denotes, read most significant
      digit first. */
  function DigitsValue(s: string): nat
    requires AllDigits(s)
  {
    if s == [] then 0
    else DigitsValue(s[..|s| - 1]) * 10 + (s[|s| - 1] - '0') as nat
  }

  /** The decimal digits of `n`, without leading zeros. */
  function ShowNat(n: nat): (s: string)
    ensures |s| > 0 && AllDigits(s)
  {
    if n < 10 then [('0' as int + n) as char]
    else ShowNat(n / 10) + [('0' as int + n % 10) as char]
  }

  /** Python's `int(s)` for a string: a non-empty run of decimal digits is
      accepted, anything else raises `ValueError`. */
  function ParseInt(s: string): (r: Result<int>)
    ensures r.Ok? <==> |s| > 0 && AllDigits(s)
    ensures r.Err? ==> r.error == ValueError
    ensures r.Ok? ==> r.value >= 0
  {
    if |s| > 0 && AllDigits(s) then Ok(DigitsValue(s)) else Err(ValueError)
  }

  /** Reading back the digits of a natural number yields that number. */
  lemma {:induction false} ParseShowRoundTrip(n: nat)
    ensures ParseInt(ShowNat(n)) == Ok(n)
  {
    ShowDigitsValue(n);
  }

  lemma {:induction false} ShowDigitsValue(n: nat)
    ensures DigitsValue(ShowNat(n)) == n
  {
    var s := ShowNat(n);
    if n < 10 {
      assert s[..|s| - 1] == [];
    } else {
      var p := ShowNat(n / 10);
      assert s[..|s| - 1] == p;
      ShowDigitsValue(n / 10);
    }
  }

  /** Python's `int(x)` for a float: truncation toward zero. */
  function Truncate(x: real): (t: int)
    ensures x >= 0.0 ==> t as real <= x < t as real + 1.0
    ensures x < 0.0 ==> t as real - 1.0 < x <= t as real
  {
    if x >= 0.0 then x.Floor else -((-x).Floor)
  }

  /** Python's `int(v)` (and Python 2's `long(v)`) on a JSON value: integers
      as they are, booleans as 0 or 1, floats truncated toward zero, digit
      strings parsed; other strings raise `ValueError` and every other value
      `TypeError`. */
  function AsInteger(v: Value): (r: Result<int>)
    ensures v.VInt? ==> r == Ok(v.i)
    ensures v.VBool? ==> r == Ok(if v.b then 1 else 0)
    ensures v.VReal? ==> r == Ok(Truncate(v.r))
    ensures v.VStr? ==> r == ParseInt(v.s)
    ensures (v.VNull? || v.VList? || v.VDict?) <==> r == Err(TypeError)
  {
    match v
    case VInt(i) => Ok(i)
    case VBool(b) => Ok(if b then 1 else 0)
    case VReal(x) => Ok(Truncate(x))
    case VStr(s) => ParseInt(s)
    case _ => Err(TypeError)
  }
}

=== FILE: legacy.dfy ===
/**
  The older single-file client, `korbit.py`. Its gateway is the same status
  test over a fixed production URL. Its token manager is a different machine
  from the one in `korbit/api.py`: a token that loads is used as it is,
  whatever its age, and is written back to the file on every call; only a
  missing or unreadable file leads to a password-grant request. Each
  authenticated call adds its own fixed offset to the millisecond clock to
  form the nonce.
 */
module Legacy {
  import opened Json
  import opened Env
  import opened Gateway
  import Tokens

  const BaseUrl := "https://api.korbit.co.kr/v1"
  const WalletPath := "user/wallet"
  const OpenOrdersPath := "user/orders/open"

  /** `get(url_suffix, **params)` against the fixed base URL. */
  function Get(w: World, path: string, params: map<string, Value>): (r: Step<Value>)
    ensures r.world.sent == w.sent + [Request(HttpGet, BaseUrl + "/" + path, params)]
    ensures r.world.files == w.files && r.world.writes == w.writes && r.world.clock == w.clock
    ensures r.world.replies == Remaining(w)
    ensures r.result.Ok? <==> NextReply(w).Reply? && NextReply(w).status == 200
    ensures r.result.Ok? ==> r.result.value == NextReply(w).body
    ensures NextReply(w).Reply? && NextReply(w).status != 200 ==>
      r.result == Err(RemoteError(NextReply(w).status))
  {
    Gateway.Get(w, BaseUrl, path, params)
  }

  /** `post(url_suffix, **post_data)` against the fixed base URL. */
  function Post(w: World, path: string, data: map<string, Value>): (r: Step<Value>)
    ensures r.world.sent == w.sent + [Request(HttpPost, BaseUrl + "/" + path, data)]
    ensures r.world.files == w.files && r.world.writes == w.writes && r.world.clock == w.clock
    ensures r.world.replies == Remaining(w)
    ensures r.result.Ok? <==> NextReply(w).Reply? && NextReply(w).status == 200
    ensures r.result.Ok? ==> r.result.value == NextReply(w).body
    ensures NextReply(w).Reply? && NextReply(w).status != 200 ==>
      r.result == Err(RemoteError(NextReply(w).status))
  {
    Gateway.Post(w, BaseUrl, path, data)
  }

  /** The password-grant request of the legacy client. */
  function GrantRequest(cfg: Tokens.Config): Request {
    Request(HttpPost, Url(BaseUrl, Tokens.TokenPath), Tokens.GrantParams(cfg))
  }

  /** The legacy `access_token()`. */
  function AccessToken(w: World, cfg: Tokens.Config): (r: Step<Value>)
    // a token that loads is returned as it is: no request, no expiry check
    ensures LoadDict(w, Tokens.TokenFile).Ok? ==>
      && r.result == Ok(w.files[Tokens.TokenFile])
      && r.world.sent == w.sent && r.world.replies == w.replies
    // otherwise exactly one password grant, whose body is the token
    ensures LoadDict(w, Tokens.TokenFile).Err? ==>
      && r.world.sent == w.sent + [GrantRequest(cfg)]
      && r.world.replies == Remaining(w)
      && (r.result.Ok? <==> NextReply(w).Reply? && NextReply(w).status == 200)
      && (r.result.Ok? ==> r.result.value == NextReply(w).body)
    // the returned token is written back on both paths
    ensures r.result.Ok? ==>
      && r.world.files == w.files[Tokens.TokenFile := r.result.value]
      && r.world.writes == w.writes + [Write(Tokens.TokenFile, r.result.value)]
    // a failed grant raises before the store
    ensures r.result.Err? ==> r.world.files == w.files && r.world.writes == w.writes
    ensures r.world.clock == w.clock
  {
    var s := match LoadDict(w, Tokens.TokenFile)
      case Ok(token) => Step(Ok(token), w)
      case Err(_) => Post(w, Tokens.TokenPath, Tokens.GrantParams(cfg));
    if s.result.Err? then s
    else Step(s.result, StoreDict(s.world, Tokens.TokenFile, s.result.value))
  }

  /** Once a token has been obtained, every later call returns it without a
      request, and the file keeps holding it. */
  lemma {:induction false} TokenIsKeptForever(w: World, cfg: Tokens.Config)
    requires AccessToken(w, cfg).result.Ok?
    ensures var r := AccessToken(w, cfg);
      var again := AccessToken(r.world, cfg);
      && again.result == r.result
      && again.world.sent == r.world.sent
      && again.world.files == r.world.files
      && again.world.writes == r.world.writes + [Write(Tokens.TokenFile, r.result.value)]
  {
    var r := AccessToken(w, cfg);
    assert LoadDict(r.world, Tokens.TokenFile) == Ok(r.result.value);
    assert r.world.files[Tokens.TokenFile := r.result.value] == r.world.files;
  }

  /** Where the two token managers part: with a stored token that has
      expired, the legacy client hands it out again, while the one in
      `korbit/api.py` asks for a new one. */
  lemma ExpiredTokenIsStillUsed(w: World, cfg: Tokens.Config)
    requires Tokens.StateOf(w) == Tokens.Expired
    ensures AccessToken(w, cfg).result == Ok(w.files[Tokens.TokenFile])
    ensures AccessToken(w, cfg).world.sent == w.sent
    ensures |Tokens.AccessToken(w, cfg).world.sent| > |w.sent|
  {
  }

  /** The nonce `wallet()` sends at clock reading `millis`. */
  function WalletNonce(millis: int): int {
    millis + 800
  }

  /** The nonce `list_open_orders()` sends at clock reading `millis`. */
  function OpenOrdersNonce(millis: int): int {
    millis + 200
  }

  /** At one clock reading the wallet nonce is the larger, and an open-orders
      call overtakes an earlier wallet nonce only once the clock has moved on
      by more than 600 milliseconds. */
  lemma NonceOffsets(t: int, later: int)
    ensures WalletNonce(t) > OpenOrdersNonce(t)
    ensures OpenOrdersNonce(later) > WalletNonce(t) <==> later > t + 600
  {
  }

  /** An authenticated GET of the legacy client: the access token of
      `access_token()` and the given nonce. With a token from which the
      access token can be read, exactly that GET is sent and its answer
      dispatched; otherwise nothing is sent. */
  function AuthGet(w: World, cfg: Tokens.Config, path: string, nonce: int): (r: Step<Value>)
    ensures var t := AccessToken(w, cfg);
      && r.world.files == t.world.files && r.world.writes == t.world.writes
      && (Tokens.HasAccessToken(t.result) ==>
            && r.world.sent == t.world.sent + [Request(HttpGet, Url(BaseUrl, path),
                 map["access_token" := Item(t.result.value, "access_token").value, "nonce" := VInt(nonce)])]
            && r.world.replies == Remaining(t.world)
            && r.result == Dispatch(NextReply(t.world)))
      && (!Tokens.HasAccessToken(t.result) ==> r.result.Err? && r.world == t.world)
      && (t.result.Err? ==> r == t)
  {
    var t := AccessToken(w, cfg);
    if t.result.Err? then t
    else
      match Item(t.result.value, "access_token")
      case Err(e) => Step(Err(e), t.world)
      case Ok(accessToken) =>
        Get(t.world, path, map["access_token" := accessToken, "nonce" := VInt(nonce)])
  }

  /** With a usable token, an authenticated GET is the gateway's `get` with
      the access token and the nonce as its parameters. */
  lemma AuthGetIsGatewayGet(w: World, cfg: Tokens.Config, path: string, nonce: int)
    requires Tokens.HasAccessToken(AccessToken(w, cfg).result)
    ensures var t := AccessToken(w, cfg);
      AuthGet(w, cfg, path, nonce) ==
        Get(t.world, path, map["access_token" := Item(t.result.value, "access_token").value, "nonce" := VInt(nonce)])
  {
  }

  /** `wallet()`: with a usable token, the last request is the wallet GET
      carrying the clock plus 800 as nonce, and its answer is returned. */
  function Wallet(w: World, cfg: Tokens.Config): (r: Step<Value>)
    ensures var t := AccessToken(w, cfg);
      Tokens.HasAccessToken(t.result) ==>
        && |r.world.sent| == |t.world.sent| + 1
        && Last(r.world.sent).verb == HttpGet
        && Last(r.world.sent).url == Url(BaseUrl, WalletPath)
        && "access_token" in Last(r.world.sent).params
        && Item(t.result.value, "access_token") == Ok(Last(r.world.sent).params["access_token"])
        && "nonce" in Last(r.world.sent).params
        && Last(r.world.sent).params["nonce"] == VInt(WalletNonce(w.clock.millis))
        && r.world.sent[..|t.world.sent|] == t.world.sent
        && r.world.replies == Remaining(t.world)
        && r.result == Dispatch(NextReply(t.world))
    ensures var t := AccessToken(w, cfg);
      && r.world.files == t.world.files && r.world.writes == t.world.writes
      && (!Tokens.HasAccessToken(t.result) ==> r.result.Err? && r.world == t.world)
    ensures r.result.Ok? ==> Tokens.HasAccessToken(AccessToken(w, cfg).result)
  {
    AuthGet(w, cfg, WalletPath, WalletNonce(w.clock.millis))
  }

  /** `list_open_orders()`: with a usable token, the last request is the
      open-orders GET carrying the clock plus 200 as nonce, and its answer is
      returned. */
  function ListOpenOrders(w: World, cfg: Tokens.Config): (r: Step<Value>)
    ensures var t := AccessToken(w, cfg);
      Tokens.HasAccessToken(t.result) ==>
        && |r.world.sent| == |t.world.sent| + 1
        && Last(r.world.sent).verb == HttpGet
        && Last(r.world.sent).url == Url(BaseUrl, OpenOrdersPath)
        && "access_token" in Last(r.world.sent).params
        && Item(t.result.value, "access_token") == Ok(Last(r.world.sent).params["access_token"])
        && "nonce" in Last(r.world.sent).params
        && Last(r.world.sent).params["nonce"] == VInt(OpenOrdersNonce(w.clock.millis))
        && r.world.sent[..|t.world.sent|] == t.world.sent
        && r.world.replies == Remaining(t.world)
        && r.result == Dispatch(NextReply(t.world))
    ensures var t := AccessToken(w, cfg);
      && r.world.files == t.world.files && r.world.writes == t.world.writes
      && (!Tokens.HasAccessToken(t.result) ==> r.result.Err? && r.world == t.world)
    ensures r.result.Ok? ==> Tokens.HasAccessToken(AccessToken(w, cfg).result)
  {
    AuthGet(w, cfg, OpenOrdersPath, OpenOrdersNonce(w.clock.millis))
  }

  /** The last request sent. */
  function Last(sent: seq<Request>): Request
    requires |sent| > 0
  {
    sent[|sent| - 1]
  }

  /** Made from the same world with a usable token, a wallet call sends a
      nonce 600 above that of an open-orders call. */
  lemma WalletNonceLeadsOpenOrders(w: World, cfg: Tokens.Config)
    requires Tokens.HasAccessToken(AccessToken(w, cfg).result)
    ensures Last(Wallet(w, cfg).world.sent).params["nonce"].i
          == Last(ListOpenOrders(w, cfg).world.sent).params["nonce"].i + 600
  {
  }
}

=== FILE: orders.dfy ===
/**
  The `Order` value object of `korbit.models`: one orderbook row (a price
  level) built from the raw `[price, amount, count]` triple the exchange
  sends, with its price rounded, ceilinged and floored to a multiple of 100.
  Prices are integral KRW amounts; the amount is kept as the raw value.
 */
module Orders {
  import opened Json

  const PriceUnit := 100

  datatype Order = Order(orderType: string, price: int, amount: Value, orderCount: int)

  /** `Order(order_type, raw)`: the fields come from the three elements of
      `raw` in order; price and count go through Python's integer conversion. */
  function FromRaw(orderType: string, raw: Value): (r: Result<Order>)
    ensures r.Ok? <==>
      && raw.VList? && |raw.items| == 3
      && AsInteger(raw.items[0]).Ok? && AsInteger(raw.items[2]).Ok?
    ensures r.Ok? ==>
      && r.value.orderType == orderType
      && Ok(r.value.price) == AsInteger(raw.items[0])
      && r.value.amount == raw.items[1]
      && Ok(r.value.orderCount) == AsInteger(raw.items[2])
  {
    match raw
    case VList(items) =>
      if |items| != 3 then Err(TypeError)
      else
        var price :- AsInteger(items[0]);
        var count :- AsInteger(items[2]);
        Ok(Order(orderType, price, items[1], count))
    case _ => Err(TypeError)
  }

  /** The raw triple an order stands for. */
  function ToRaw(o: Order): Value {
    VList([VInt(o.price), o.amount, VInt(o.orderCount)])
  }

  /** Building an order from its own raw triple gives the order back. */
  lemma FromRawToRaw(o: Order)
    ensures FromRaw(o.orderType, ToRaw(o)) == Ok(o)
  {
  }

  /** `floored_price`: the multiple of 100 at or below the price. */
  function FlooredPrice(o: Order): (r: int)
    ensures r % PriceUnit == 0
    ensures r <= o.price < r + PriceUnit
  {
    o.price - o.price % PriceUnit
  }

  /** `ceilinged_price`: the multiple of 100 at or above the price. */
  function CeilingedPrice(o: Order): (r: int)
    ensures r % PriceUnit == 0
    ensures r - PriceUnit < o.price <= r
  {
    if o.price % PriceUnit == 0 then o.price
    else o.price - o.price % PriceUnit + PriceUnit
  }

  /** `rounded_price`: a multiple of 100 nearest to the price. Which
      neighbour a price exactly halfway between two multiples gets is not
      promised. */
  function RoundedPrice(o: Order): (r: int)
    ensures r % PriceUnit == 0
    ensures r == FlooredPrice(o) || r == CeilingedPrice(o)
    ensures -PriceUnit / 2 <= r - o.price <= PriceUnit / 2
    ensures o.price - FlooredPrice(o) < PriceUnit / 2 ==> r == FlooredPrice(o)
    ensures o.price - FlooredPrice(o) > PriceUnit / 2 ==> r == CeilingedPrice(o)
  {
    if o.price % PriceUnit < PriceUnit / 2 then FlooredPrice(o) else CeilingedPrice(o)
  }

  /** Floor, rounding and ceiling are ordered, at most one unit apart, and all
      three leave a price that is already a multiple of 100 alone. */
  lemma PriceHelpersAgree(o: Order)
    ensures FlooredPrice(o) <= RoundedPrice(o) <= CeilingedPrice(o)
    ensures CeilingedPrice(o) - FlooredPrice(o) == (if o.price % PriceUnit == 0 then 0 else PriceUnit)
    ensures o.price % PriceUnit == 0 <==> FlooredPrice(o) == o.price
    ensures o.price % PriceUnit == 0 ==> RoundedPrice(o) == o.price && CeilingedPrice(o) == o.price
  {
  }

  /** The order of `test_rounded_price`: raw `(500123, 0.1, 1)` on the sell
      side keeps its price and rounds, ceilings and floors to 500100, 500200
      and 500100. */
  lemma RoundedPriceExample()
    ensures var r := FromRaw("sell", VList([VInt(500123), VReal(0.1), VInt(1)]));
      && r.Ok?
      && r.value.price == 500123
      && RoundedPrice(r.value) == 500100
      && CeilingedPrice(r.value) == 500200
      && FlooredPrice(r.value) == 500100
  {
    var o := Order("sell", 500123, VReal(0.1), 1);
    assert FromRaw("sell", VList([VInt(500123), VReal(0.1), VInt(1)])) == Ok(o);
    assert o.price % PriceUnit == 23;
  }

  /** The order of `test_order_object`: raw `[300000, 0.1, 2]` on the bid side
      keeps its side, price, amount and count. */
  lemma OrderObjectExample()
    ensures var r := FromRaw("bid", VList([VInt(300000), VReal(0.1), VInt(2)]));
      && r.Ok?
      && r.value.orderType == "bid"
      && r.value.price == 300000
      && r.value.amount == VReal(0.1)
      && r.value.orderCount == 2
  {
  }
}

=== FILE: tokens.dfy ===
/**
  The token manager of `korbit/api.py` (`access_token` with its helpers
  `has_expired` and `request_token`). The stored token is one of three
  states: absent (the file is missing, or its expiry cannot be computed),
  valid, or expired. A valid token is returned as it is; otherwise a new one
  is requested with the password grant, stamped with the current time and
  stored. Because the refresh of an expired token sits inside the same bare
  `try` as the load, a refresh that fails there is attempted a second time by
  the `except` branch.
 */
module Tokens {
  import opened Json
  import opened Env
  import opened Gateway

  const TokenFile := "token.json"
  const TokenPath := "oauth2/access_token"

  /** The deployment's base URL and the client's credentials (read from the
      environment by the source). */
  datatype Config = Config(
    baseUrl: string,
    clientId: string,
    clientSecret: string,
    username: string,
    password: string)

  /** The form of the password-grant token request. */
  function GrantParams(cfg: Config): map<string, Value> {
    map[
      "client_id" := VStr(cfg.clientId),
      "client_secret" := VStr(cfg.clientSecret),
      "username" := VStr(cfg.username),
      "password" := VStr(cfg.password),
      "grant_type" := VStr("password")]
  }

  function GrantRequest(cfg: Config): Request {
    Request(HttpPost, Url(cfg.baseUrl, TokenPath), GrantParams(cfg))
  }

  /** A JSON value as an operand of Python's `+` and `<` on numbers. */
  function Numeric(v: Value): (r: Result<real>)
    ensures r.Ok? <==> v.VInt? || v.VReal? || v.VBool?
    ensures v.VInt? ==> r == Ok(v.i as real)
    ensures v.VReal? ==> r == Ok(v.r)
    ensures v.VBool? ==> r == Ok(if v.b then 1.0 else 0.0)
  {
    match v
    case VInt(i) => Ok(i as real)
    case VReal(x) => Ok(x)
    case VBool(b) => Ok(if b then 1.0 else 0.0)
    case _ => Err(TypeError)
  }

  /** The instant a token stops being valid, `issued_at + expires_in`, when
      both are present and numeric. */
  function Deadline(token: Value): (r: Result<real>)
    ensures r.Ok? <==>
      && token.VDict? && "issued_at" in token.entries && "expires_in" in token.entries
      && Numeric(token.entries["issued_at"]).Ok? && Numeric(token.entries["expires_in"]).Ok?
    ensures r.Ok? ==>
      r.value == Numeric(token.entries["issued_at"]).value + Numeric(token.entries["expires_in"]).value
  {
    var issuedAt :- Item(token, "issued_at");
    var expiresIn :- Item(token, "expires_in");
    var a :- Numeric(issuedAt);
    var e :- Numeric(expiresIn);
    Ok(a + e)
  }

  /** `has_expired(token)` at time `now`: expired exactly when the deadline
      lies strictly before `now`; a token at its deadline is still valid. A
      token without a numeric deadline raises. */
  function HasExpired(token: Value, now: int): (r: Result<bool>)
    ensures r.Ok? <==> Deadline(token).Ok?
    ensures r.Ok? ==> (r.value <==> Deadline(token).value < now as real)
  {
    var deadline :- Deadline(token);
    Ok(deadline < now as real)
  }

  /** Expiry is permanent: a token expired at `now` is expired at every later
      time, and one valid at `now` was valid at every earlier time. */
  lemma ExpiryIsMonotone(token: Value, now: int, later: int)
    requires now <= later
    requires HasExpired(token, now).Ok?
    ensures HasExpired(token, now) == Ok(true) ==> HasExpired(token, later) == Ok(true)
    ensures HasExpired(token, later) == Ok(false) ==> HasExpired(token, now) == Ok(false)
  {
  }

  /** `token_dict['issued_at'] = now` on the body of the token reply; only a
      dictionary accepts it. */
  function Stamp(body: Value, now: int): (r: Result<Value>)
    ensures r.Ok? <==> body.VDict?
    ensures r.Ok? ==> r.value == VDict(body.entries["issued_at" := VInt(now)])
    ensures r.Err? ==> r.error == TypeError
  {
    match body
    case VDict(m) => Ok(VDict(m["issued_at" := VInt(now)]))
    case _ => Err(TypeError)
  }

  /** `request_token()`: one password-grant request; on success the body,
      stamped with the current time, is stored as the token file and
      returned. A failed request, or a body that is not a dictionary, raises
      and stores nothing. */
  function RequestToken(w: World, cfg: Config): (r: Step<Value>)
    ensures r.world.sent == w.sent + [GrantRequest(cfg)]
    ensures r.world.replies == Remaining(w)
    ensures r.world.clock == w.clock
    ensures r.result.Ok? <==>
      NextReply(w).Reply? && NextReply(w).status == 200 && NextReply(w).body.VDict?
    ensures r.result.Ok? ==> r.result == Stamp(NextReply(w).body, w.clock.seconds)
    ensures r.result.Ok? ==>
      && r.world.files == w.files[TokenFile := r.result.value]
      && r.world.writes == w.writes + [Write(TokenFile, r.result.value)]
    ensures r.result.Err? ==> r.world.files == w.files && r.world.writes == w.writes
  {
    var s := Post(w, cfg.baseUrl, TokenPath, GrantParams(cfg));
    if s.result.Err? then s
    else
      match Stamp(s.result.value, w.clock.seconds)
      case Err(e) => Step(Err(e), s.world)
      case Ok(token) => Step(Ok(token), StoreDict(s.world, TokenFile, token))
  }

  /** The states of the stored token. */
  datatype TokenState = Absent | Valid | Expired

  /** The state of the stored token at the world's clock: a file that is
      missing, or whose expiry cannot be computed, counts as absent. */
  function StateOf(w: World): (s: TokenState)
    ensures s == Absent <==> LoadDict(w, TokenFile).Err? || HasExpired(w.files[TokenFile], w.clock.seconds).Err?
    ensures s == Valid <==> LoadDict(w, TokenFile).Ok? && HasExpired(w.files[TokenFile], w.clock.seconds) == Ok(false)
    ensures s == Expired <==> LoadDict(w, TokenFile).Ok? && HasExpired(w.files[TokenFile], w.clock.seconds) == Ok(true)
  {
    match LoadDict(w, TokenFile)
    case Err(_) => Absent
    case Ok(token) =>
      match HasExpired(token, w.clock.seconds)
      case Err(_) => Absent
      case Ok(expired) => if expired then Expired else Valid
  }

  /** `access_token()`, following the source's control flow. */
  function AccessToken(w: World, cfg: Config): (r: Step<Value>)
    // a valid stored token is returned unchanged: no request, no write
    ensures StateOf(w) == Valid ==> r == Step(Ok(w.files[TokenFile]), w)
    // otherwise one password grant is sent, and a second only after a failed
    // refresh of an expired token
    ensures StateOf(w) == Absent ==> r.world.sent == w.sent + [GrantRequest(cfg)]
    ensures StateOf(w) == Expired ==>
      r.world.sent == w.sent + [GrantRequest(cfg)] || r.world.sent == w.sent + [GrantRequest(cfg), GrantRequest(cfg)]
    ensures StateOf(w) == Expired ==>
      (|r.world.sent| == |w.sent| + 2 <==> RequestToken(w, cfg).result.Err?)
    // an expired token's refresh fails only when both attempts fail
    ensures StateOf(w) == Expired && r.result.Err? ==> |r.world.sent| == |w.sent| + 2
    // an absent token is replaced by the grant's answer; an expired one by
    // the first grant's answer when that succeeds
    ensures StateOf(w) == Absent ==> r == RequestToken(w, cfg)
    ensures StateOf(w) == Expired && RequestToken(w, cfg).result.Ok? ==> r == RequestToken(w, cfg)
    // and, when that first grant fails, by whatever the second grant gives
    ensures StateOf(w) == Expired && RequestToken(w, cfg).result.Err? ==>
      r == RequestToken(RequestToken(w, cfg).world, cfg)
    // a new token is the body of the 200 answer to the last grant sent,
    // stamped with the current time
    ensures StateOf(w) != Valid && r.result.Ok? ==>
      var n := |r.world.sent| - |w.sent|;
      && 1 <= n <= |w.replies| && w.replies[n - 1].Reply? && w.replies[n - 1].status == 200
      && r.result == Stamp(w.replies[n - 1].body, w.clock.seconds)
    // a new token carries the current time and is what the file now holds
    ensures StateOf(w) != Valid && r.result.Ok? ==>
      && r.result.value.VDict?
      && "issued_at" in r.result.value.entries
      && r.result.value.entries["issued_at"] == VInt(w.clock.seconds)
      && r.world.files == w.files[TokenFile := r.result.value]
      && r.world.writes == w.writes + [Write(TokenFile, r.result.value)]
    // a failure leaves the token file alone
    ensures r.result.Err? ==> r.world.files == w.files && r.world.writes == w.writes
    ensures r.world.clock == w.clock
  {
    match LoadDict(w, TokenFile)
    case Err(_) => RequestToken(w, cfg)
    case Ok(token) =>
      match HasExpired(token, w.clock.seconds)
      case Err(_) => RequestToken(w, cfg)
      case Ok(expired) =>
        if !expired then Step(Ok(token), w)
        else
          var first := RequestToken(w, cfg);
          if first.result.Ok? then first else RequestToken(first.world, cfg)
  }

  /** A token from which `token['access_token']` can be read. */
  predicate HasAccessToken(t: Result<Value>) {
    t.Ok? && Item(t.value, "access_token").Ok?
  }

  /** Once a call has produced a token with a non-negative lifetime, the next
      call at the same time finds it valid and returns it without a request. */
  lemma RefreshedTokenIsReused(w: World, cfg: Config)
    requires AccessToken(w, cfg).result.Ok?
    requires StateOf(w) == Valid || Numeric(Item(AccessToken(w, cfg).result.value, "expires_in").GetOr(VNull)).GetOr(-1.0) >= 0.0
    ensures var r := AccessToken(w, cfg);
      AccessToken(r.world, cfg) == Step(Ok(r.result.value), r.world)
  {
    var r := AccessToken(w, cfg);
    if StateOf(w) != Valid {
      var t := r.result.value;
      assert r.world.files[TokenFile] == t;
      assert Deadline(t).Ok?;
      assert StateOf(r.world) == Valid;
    }
  }
}

=== FILE: transactions.dfy ===
/**
  The transaction table of `korbit/models.py`. `Transaction.insert` maps an
  exchange record onto a row and adds it; the primary key is the record's
  `id`, and a key that is already taken (or that the database cannot accept)
  raises `IntegrityError`, which is swallowed after a rollback. The "recent"
  queries return the rows of one type, latest completion first, at most
  `limit` of them. The database session is a map from key to row.
 */
module Transactions {
  import opened Json

  /** A currency and an amount in it. */
  datatype Money = Money(currency: Value, value: Value)

  /** One row. Times are whole seconds since the epoch; `balances` is the
      record's `balances` as it is serialised into the text column. */
  datatype Transaction = Transaction(
    id: Value,
    kind: Value,
    timestamp: int,
    completedAt: int,
    fee: Money,
    orderId: Value,
    price: Money,
    amount: Money,
    balances: Value)

  type Table = map<int, Transaction>

  /** An epoch-millisecond value as whole seconds: `long(ms) / 1000`, which
      in Python 2 is floor division, like Dafny's `/` by a positive number. */
  function Seconds(ms: Value): (r: Result<int>)
    ensures r.Ok? <==> AsInteger(ms).Ok?
    ensures r.Ok? ==> r.value * 1000 <= AsInteger(ms).value < r.value * 1000 + 1000
  {
    var n :- AsInteger(ms);
    Ok(n / 1000)
  }

  /** `x[outer][inner]`. */
  function Nested(x: Value, outer: string, inner: string): (r: Result<Value>)
    ensures r.Ok? <==> Item(x, outer).Ok? && Item(Item(x, outer).value, inner).Ok?
    ensures r.Ok? ==> r.value == x.entries[outer].entries[inner]
  {
    var group :- Item(x, outer);
    Item(group, inner)
  }

  function MoneyAt(x: Value, outer: string): (r: Result<Money>)
    ensures r.Ok? <==> Nested(x, outer, "currency").Ok? && Nested(x, outer, "value").Ok?
    ensures r.Ok? ==> r.value == Money(x.entries[outer].entries["currency"], x.entries[outer].entries["value"])
  {
    var currency :- Nested(x, outer, "currency");
    var value :- Nested(x, outer, "value");
    Ok(Money(currency, value))
  }

  /** Every field `insert` reads is present and converts: the ids and the
      type, the two epoch-millisecond times, the fee, the fill details with
      their order id, price and amount, and the balances. */
  predicate Mappable(x: Value) {
    && Item(x, "id").Ok? && Item(x, "type").Ok?
    && Item(x, "timestamp").Ok? && Seconds(Item(x, "timestamp").value).Ok?
    && Item(x, "completedAt").Ok? && Seconds(Item(x, "completedAt").value).Ok?
    && MoneyAt(x, "fee").Ok?
    && Nested(x, "fillsDetail", "orderId").Ok?
    && MoneyAt(Item(x, "fillsDetail").value, "price").Ok?
    && MoneyAt(Item(x, "fillsDetail").value, "amount").Ok?
    && Item(x, "balances").Ok?
  }

  /** The field mapping at the start of `insert`, field by field in the
      source's order: it succeeds exactly when every field can be read, and
      the first missing or malformed field raises. */
  function FromRecord(x: Value): (r: Result<Transaction>)
    ensures r.Ok? <==> Mappable(x)
    ensures r.Ok? ==>
      && Item(x, "id") == Ok(r.value.id)
      && Item(x, "type") == Ok(r.value.kind)
      && Seconds(Item(x, "timestamp").value) == Ok(r.value.timestamp)
      && Seconds(Item(x, "completedAt").value) == Ok(r.value.completedAt)
      && MoneyAt(x, "fee") == Ok(r.value.fee)
      && Nested(x, "fillsDetail", "orderId") == Ok(r.value.orderId)
      && MoneyAt(Item(x, "fillsDetail").value, "price") == Ok(r.value.price)
      && MoneyAt(Item(x, "fillsDetail").value, "amount") == Ok(r.value.amount)
      && Item(x, "balances") == Ok(r.value.balances)
    ensures x.VDict? && ("fee" !in x.entries || "fillsDetail" !in x.entries) ==> r.Err?
  {
    var id :- Item(x, "id");
    var kind :- Item(x, "type");
    var ts :- Item(x, "timestamp");
    var timestamp :- Seconds(ts);
    var done :- Item(x, "completedAt");
    var completedAt :- Seconds(done);
    var fee :- MoneyAt(x, "fee");
    var fills :- Item(x, "fillsDetail");
    var orderId :- Item(fills, "orderId");
    var price :- MoneyAt(fills, "price");
    var amount :- MoneyAt(fills, "amount");
    var balances :- Item(x, "balances");
    Ok(Transaction(id, kind, timestamp, completedAt, fee, orderId, price, amount, balances))
  }

  /** A currency group as the exchange sends it. */
  function MoneyRecord(m: Money): Value {
    VDict(map["currency" := m.currency, "value" := m.value])
  }

  /** A record the exchange could send for row `t`: its fields under the
      keys `insert` reads, with the times in epoch milliseconds. */
  function ToRecord(t: Transaction): Value {
    VDict(map[
      "id" := t.id,
      "type" := t.kind,
      "timestamp" := VInt(t.timestamp * 1000),
      "completedAt" := VInt(t.completedAt * 1000),
      "fee" := MoneyRecord(t.fee),
      "fillsDetail" := VDict(map[
        "orderId" := t.orderId,
        "price" := MoneyRecord(t.price),
        "amount" := MoneyRecord(t.amount)]),
      "balances" := t.balances])
  }

  /** Whole seconds written as milliseconds read back as the same seconds. */
  lemma SecondsOfMillis(s: int)
    ensures Seconds(VInt(s * 1000)) == Ok(s)
  {
    var r := Seconds(VInt(s * 1000)).value;
    assert r * 1000 <= s * 1000 < r * 1000 + 1000;
    assert (r - s) * 1000 <= 0 < (r - s + 1) * 1000;
  }

  /** The mapping reads every row back from its record: `FromRecord` is a
      left inverse of `ToRecord`. */
  lemma FromRecordToRecord(t: Transaction)
    ensures FromRecord(ToRecord(t)) == Ok(t)
  {
    var x := ToRecord(t);
    SecondsOfMillis(t.timestamp);
    SecondsOfMillis(t.completedAt);
    MoneyRecordReads(x.entries["fillsDetail"], "price", t.price);
    MoneyRecordReads(x.entries["fillsDetail"], "amount", t.amount);
    MoneyRecordReads(x, "fee", t.fee);
    FieldsDetermineRow(x, t);
  }

  /** A record whose every field reads as the matching column of `t` maps
      to `t`. */
  lemma FieldsDetermineRow(x: Value, t: Transaction)
    requires Item(x, "id") == Ok(t.id) && Item(x, "type") == Ok(t.kind)
    requires Item(x, "timestamp").Ok? && Seconds(Item(x, "timestamp").value) == Ok(t.timestamp)
    requires Item(x, "completedAt").Ok? && Seconds(Item(x, "completedAt").value) == Ok(t.completedAt)
    requires MoneyAt(x, "fee") == Ok(t.fee)
    requires Nested(x, "fillsDetail", "orderId") == Ok(t.orderId)
    requires MoneyAt(Item(x, "fillsDetail").value, "price") == Ok(t.price)
    requires MoneyAt(Item(x, "fillsDetail").value, "amount") == Ok(t.amount)
    requires Item(x, "balances") == Ok(t.balances)
    ensures FromRecord(x) == Ok(t)
  {
    assert Mappable(x);
  }

  /** A currency group stored under `key` is read back as it was. */
  lemma MoneyRecordReads(x: Value, key: string, m: Money)
    requires x.VDict? && key in x.entries && x.entries[key] == MoneyRecord(m)
    ensures MoneyAt(x, key) == Ok(m)
  {
  }

  /** The integer a signed decimal string denotes: the digits, optionally
      after a `+` or a `-`. */
  function ParseSigned(s: string): (r: Result<int>)
    ensures r.Ok? <==> ParseInt(s).Ok? || (|s| > 0 && (s[0] == '+' || s[0] == '-') && ParseInt(s[1..]).Ok?)
    ensures ParseInt(s).Ok? ==> r == ParseInt(s)
    ensures |s| > 0 && s[0] == '+' && ParseInt(s[1..]).Ok? ==> r == ParseInt(s[1..])
    ensures |s| > 0 && s[0] == '-' && ParseInt(s[1..]).Ok? ==> r == Ok(-ParseInt(s[1..]).value)
  {
    if |s| > 0 && s[0] == '-' then
      var n :- ParseInt(s[1..]);
      Ok(-n)
    else if |s| > 0 && s[0] == '+' then ParseInt(s[1..])
    else ParseInt(s)
  }

  /** The integer primary key an id becomes, if the database accepts it: an
      integer as it is, a boolean as 0 or 1, a float only when it is
      integral, and a string only when it spells a signed integer. */
  function PrimaryKey(id: Value): (r: Option<int>)
    ensures id.VInt? ==> r == Some(id.i)
    ensures id.VBool? ==> r == Some(if id.b then 1 else 0)
    ensures id.VReal? ==> (r.Some? <==> id.r.Floor as real == id.r)
    ensures id.VReal? && r.Some? ==> r.value as real == id.r
    ensures id.VStr? ==> (r.Some? <==> ParseSigned(id.s).Ok?)
    ensures id.VStr? && r.Some? ==> r.value == ParseSigned(id.s).value
    ensures id.VNull? || id.VList? || id.VDict? ==> r.None?
  {
    match id
    case VInt(i) => Some(i)
    case VBool(b) => Some(if b then 1 else 0)
    case VReal(x) => if x.Floor as real == x then Some(x.Floor) else None
    case VStr(s) => if ParseSigned(s).Ok? then Some(ParseSigned(s).value) else None
    case _ => None
  }

  /** Every row is stored under the key its own id gives. */
  ghost predicate WellKeyed(table: Table) {
    forall k :: k in table ==> PrimaryKey(table[k].id) == Some(k)
  }

  /** `Transaction.insert(record)`: a record that cannot be mapped raises
      before the table is touched; otherwise the row is added under its key
      unless the key is taken or unusable, in which case the table stays as
      it was and nothing is raised. */
  function Insert(table: Table, x: Value): (r: Result<Table>)
    ensures r.Err? <==> FromRecord(x).Err?
    ensures r.Ok? ==>
      var row := FromRecord(x).value;
      match PrimaryKey(row.id)
      case None => r.value == table
      case Some(k) =>
        && (k in table ==> r.value == table)
        && (k !in table ==>
              && r.value.Keys == table.Keys + {k}
              && r.value[k] == row
              && forall j :: j in table ==> r.value[j] == table[j])
    ensures WellKeyed(table) && r.Ok? ==> WellKeyed(r.value)
  {
    var row :- FromRecord(x);
    match PrimaryKey(row.id)
    case None => Ok(table)
    case Some(k) => if k in table then Ok(table) else Ok(table[k := row])
  }

  /** A record for a row with a new usable key adds exactly that row; one
      whose key is taken leaves the table as it was. */
  lemma InsertRecordOf(table: Table, t: Transaction)
    requires PrimaryKey(t.id).Some?
    ensures var k := PrimaryKey(t.id).value;
      && (k !in table ==> Insert(table, ToRecord(t)) == Ok(table[k := t]))
      && (k in table ==> Insert(table, ToRecord(t)) == Ok(table))
  {
    FromRecordToRecord(t);
  }

  /** Inserting the same record twice is the same as inserting it once. */
  lemma InsertIsIdempotent(table: Table, x: Value)
    requires Insert(table, x).Ok?
    ensures Insert(Insert(table, x).value, x) == Insert(table, x)
  {
  }

  /** A record without `fee` or `fillsDetail` never reaches the table. */
  lemma InsertNeedsTradeDetails(table: Table, x: Value)
    requires x.VDict? && ("fee" !in x.entries || "fillsDetail" !in x.entries)
    ensures Insert(table, x).Err?
  {
  }

  // ---------------------------------------------------------------------
  // Recent rows of one type

  /** The keys of the rows of type `kind`. */
  function KeysOfKind(table: Table, kind: Value): set<int> {
    set k | k in table && table[k].kind == kind
  }

  ghost predicate Latest(rows: seq<Transaction>) {
    forall i, j :: 0 <= i < j < |rows| ==> rows[i].completedAt >= rows[j].completedAt
  }

  ghost predicate Distinct(rows: seq<Transaction>) {
    forall x :: multiset(rows)[x] <= 1
  }

  /** `rows` is an answer to "the `limit` latest rows of type `kind`": as many
      as there are, up to `limit`; each a distinct row of that type; latest
      first; and no row of that type left out is later than the last one
      returned. Rows completed at the same time may come in any order. */
  ghost predicate IsRecent(table: Table, kind: Value, limit: nat, rows: seq<Transaction>) {
    && |rows| == (if limit < |KeysOfKind(table, kind)| then limit else |KeysOfKind(table, kind)|)
    && (forall i :: 0 <= i < |rows| ==> rows[i] in table.Values && rows[i].kind == kind)
    && Distinct(rows)
    && Latest(rows)
    && (forall k :: k in KeysOfKind(table, kind) && table[k] !in rows ==>
          forall i :: 0 <= i < |rows| ==> table[k].completedAt <= rows[i].completedAt)
  }

  /** Places `x` among rows kept latest first: after every row completed
      later, before the others. */
  function InsertLatest(rows: seq<Transaction>, x: Transaction): (r: seq<Transaction>)
    ensures multiset(r) == multiset(rows) + multiset{x}
  {
    if rows == [] || rows[0].completedAt <= x.completedAt then [x] + rows
    else
      assert rows == [rows[0]] + rows[1..];
      [rows[0]] + InsertLatest(rows[1..], x)
  }

  /** A row no earlier than any of `rest` can go in front of it. */
  lemma LatestCons(h: Transaction, rest: seq<Transaction>)
    requires Latest(rest)
    requires forall j :: 0 <= j < |rest| ==> rest[j].completedAt <= h.completedAt
    ensures Latest([h] + rest)
  {
    var r := [h] + rest;
    forall i, j | 0 <= i < j < |r|
      ensures r[i].completedAt >= r[j].completedAt
    {
      assert r[j] == rest[j - 1];
      if i > 0 {
        assert r[i] == rest[i - 1];
      }
    }
  }

  /** Insertion keeps the rows latest first. */
  lemma {:induction false} InsertLatestKeepsOrder(rows: seq<Transaction>, x: Transaction)
    requires Latest(rows)
    ensures Latest(InsertLatest(rows, x))
  {
    if rows == [] || rows[0].completedAt <= x.completedAt {
      forall j | 0 <= j < |rows|
        ensures rows[j].completedAt <= x.completedAt
      {
        assert rows[0].completedAt >= rows[j].completedAt;
      }
      LatestCons(x, rows);
    } else {
      var tail := rows[1..];
      var rest := InsertLatest(tail, x);
      assert Latest(tail);
      InsertLatestKeepsOrder(tail, x);
      forall j | 0 <= j < |rest|
        ensures rest[j].completedAt <= rows[0].completedAt
      {
        assert rest[j] in multiset(rest);
        if rest[j] != x {
          assert rest[j] in multiset(tail);
          var m :| 0 <= m < |tail| && tail[m] == rest[j];
          assert rows[m + 1] == tail[m];
        }
      }
      LatestCons(rows[0], rest);
    }
  }

  /** The rows stored under `keys`. */
  ghost function RowsOf(table: Table, keys: set<int>): set<Transaction> {
    set k | k in keys && k in table :: table[k]
  }

  /** `sorted` holds the rows under `keys`, each once, latest first. */
  ghost predicate Collects(table: Table, keys: set<int>, sorted: seq<Transaction>) {
    && keys <= table.Keys
    && |sorted| == |keys|
    && Latest(sorted)
    && Distinct(sorted)
    && forall x :: x in multiset(sorted) <==> x in RowsOf(table, keys)
  }

  /** Inserting the row of one more key keeps `Collects`. */
  lemma CollectsStep(table: Table, keys: set<int>, sorted: seq<Transaction>, k: int)
    requires WellKeyed(table) && Collects(table, keys, sorted)
    requires k in table && k !in keys
    ensures Collects(table, keys + {k}, InsertLatest(sorted, table[k]))
  {
    var x := table[k];
    var next := InsertLatest(sorted, x);
    forall j | j in keys && j in table
      ensures table[j] != x
    {
      assert PrimaryKey(table[j].id) == Some(j);
    }
    assert x !in RowsOf(table, keys);
    InsertLatestKeepsOrder(sorted, x);
    assert RowsOf(table, keys + {k}) == RowsOf(table, keys) + {x};
    assert |keys + {k}| == |keys| + 1;
    assert |next| == |multiset(next)| == |sorted| + 1;
  }

  /** A prefix of distinct rows is distinct. */
  lemma PrefixDistinct(sorted: seq<Transaction>, n: nat)
    requires n <= |sorted| && Distinct(sorted)
    ensures Distinct(sorted[..n])
  {
    assert sorted == sorted[..n] + sorted[n..];
    assert multiset(sorted) == multiset(sorted[..n]) + multiset(sorted[n..]);
    forall y
      ensures multiset(sorted[..n])[y] <= 1
    {
      assert multiset(sorted[..n])[y] <= multiset(sorted)[y];
    }
  }

  /** A prefix of rows kept latest first is kept latest first. */
  lemma PrefixLatest(sorted: seq<Transaction>, n: nat)
    requires n <= |sorted| && Latest(sorted)
    ensures Latest(sorted[..n])
  {
    var rows := sorted[..n];
    forall i, j | 0 <= i < j < |rows|
      ensures rows[i].completedAt >= rows[j].completedAt
    {
      assert rows[i] == sorted[i] && rows[j] == sorted[j];
    }
  }

  /** Every row of a full collection is a stored row of that type. */
  lemma CollectedRowsHaveKind(table: Table, kind: Value, sorted: seq<Transaction>, i: int)
    requires Collects(table, KeysOfKind(table, kind), sorted)
    requires 0 <= i < |sorted|
    ensures sorted[i] in table.Values && sorted[i].kind == kind
  {
    assert sorted[i] in multiset(sorted);
    assert sorted[i] in RowsOf(table, KeysOfKind(table, kind));
    var k :| k in KeysOfKind(table, kind) && k in table && table[k] == sorted[i];
  }

  /** A row of the type missing from a prefix comes after every row in it. */
  lemma LeftOutIsEarlier(table: Table, kind: Value, sorted: seq<Transaction>, n: nat, k: int)
    requires Collects(table, KeysOfKind(table, kind), sorted)
    requires n <= |sorted|
    requires k in KeysOfKind(table, kind) && table[k] !in sorted[..n]
    ensures forall i :: 0 <= i < n ==> table[k].completedAt <= sorted[..n][i].completedAt
  {
    assert table[k] in RowsOf(table, KeysOfKind(table, kind));
    assert table[k] in multiset(sorted);
    var j :| 0 <= j < |sorted| && sorted[j] == table[k];
    forall i | 0 <= i < n
      ensures table[k].completedAt <= sorted[..n][i].completedAt
    {
      assert sorted[..n][i] == sorted[i];
    }
  }

  /** The first `limit` rows of a full collection answer the query. */
  lemma CollectsPrefixIsRecent(table: Table, kind: Value, limit: nat, sorted: seq<Transaction>)
    requires Collects(table, KeysOfKind(table, kind), sorted)
    ensures var n := if limit < |sorted| then limit else |sorted|;
      IsRecent(table, kind, limit, sorted[..n])
  {
    var n := if limit < |sorted| then limit else |sorted|;
    var rows := sorted[..n];
    forall i | 0 <= i < |rows|
      ensures rows[i] in table.Values && rows[i].kind == kind
    {
      assert rows[i] == sorted[i];
      CollectedRowsHaveKind(table, kind, sorted, i);
    }
    forall k | k in KeysOfKind(table, kind) && table[k] !in rows
      ensures forall i :: 0 <= i < |rows| ==> table[k].completedAt <= rows[i].completedAt
    {
      LeftOutIsEarlier(table, kind, sorted, n, k);
    }
    PrefixDistinct(sorted, n);
    PrefixLatest(sorted, n);
  }

  /** A non-empty set of keys has a member. */
  lemma NonEmptyHasKey(keys: set<int>)
    requires keys != {}
    ensures exists k :: k in keys
  {
    assert (forall k :: k !in keys) ==> keys == {};
  }

  /** The rows stored under `keys`, each once, sorted by descending
      completion time: the `order_by(desc(completed_at))` of the queries. */
  method SortedRows(table: Table, keys: set<int>) returns (sorted: seq<Transaction>)
    requires WellKeyed(table) && keys <= table.Keys
    ensures Collects(table, keys, sorted)
    decreases |keys|
  {
    if keys == {} {
      assert RowsOf(table, keys) == {};
      return [];
    }
    NonEmptyHasKey(keys);
    var k :| k in keys;
    var others := keys - {k};
    var rest := SortedRows(table, others);
    CollectsStep(table, others, rest, k);
    assert others + {k} == keys;
    sorted := InsertLatest(rest, table[k]);
  }

  /** The number of rows a `LIMIT` lets through out of `count`: no limit
      (`None`) and a negative one, which SQLite reads as no limit, let every
      row through. */
  function RowLimit(limit: Option<int>, count: nat): (n: nat)
    ensures limit.None? || limit.value < 0 ==> n == count
    ensures limit.Some? && limit.value >= 0 ==> n == limit.value
  {
    if limit.None? || limit.value < 0 then count else limit.value
  }

  /** The rows of type `kind`, latest first, as many as `limit` lets
      through: the query behind `recent_sale_orders` and
      `recent_buying_orders`. Without a usable limit every row of the type
      comes back. */
  method Recent(table: Table, kind: Value, limit: Option<int>) returns (rows: seq<Transaction>)
    requires WellKeyed(table)
    ensures IsRecent(table, kind, RowLimit(limit, |KeysOfKind(table, kind)|), rows)
    ensures limit.None? || limit.value < 0 ==> |rows| == |KeysOfKind(table, kind)|
  {
    var all := KeysOfKind(table, kind);
    var sorted := SortedRows(table, all);
    var n := RowLimit(limit, |all|);
    CollectsPrefixIsRecent(table, kind, n, sorted);
    var m := if n < |sorted| then n else |sorted|;
    rows := sorted[..m];
  }

  /** `recent_sale_orders(limit=1)`. */
  method RecentSaleOrders(table: Table, limit: Option<int> := Some(1)) returns (rows: seq<Transaction>)
    requires WellKeyed(table)
    ensures IsRecent(table, VStr("sell"), RowLimit(limit, |KeysOfKind(table, VStr("sell"))|), rows)
  {
    rows := Recent(table, VStr("sell"), limit);
  }

  /** `recent_buying_orders(limit=1)`. */
  method RecentBuyingOrders(table: Table, limit: Option<int> := Some(1)) returns (rows: seq<Transaction>)
    requires WellKeyed(table)
    ensures IsRecent(table, VStr("buy"), RowLimit(limit, |KeysOfKind(table, VStr("buy"))|), rows)
  {
    rows := Recent(table, VStr("buy"), limit);
  }
}
